=== FILE: README.md ===
# Girder web client helpers, modelled in Dafny

This project models the general-purpose helpers of the Girder web client in
`clients/web/src/utilities/MiscFunctions.js`:

- `girder.formatDate`: the assembly of the display string, at the month, day,
  minute and second resolutions;
- `girder.formatSize`: the precision, the division loop and the unit table;
- `girder.localeComparator` and `girder.localeSort`: the collection comparator
  with its secondary sort field and sort direction, and the array comparator;
- `girder.getModelClassByName`;
- `girder.parseQueryString`;
- `girder.cookie.findAll` and `girder.cookie.find`;
- the plugin configuration registry behind `girder.exposePluginConfig` and
  `girder.getPluginConfigRoute`.

Each operation is a pure function over immutable values. The exceptions are
the `formatSize` division loop and `cookie.find`'s traversal, which are
methods with loops. In the parsers, the cookie reader and the registry,
JavaScript's `undefined` and `null` are `Option.None`. The comparators keep
`undefined`, `null`, strings and other values apart as `Field` cases,
because `null` throws where `undefined` does not. A thrown `TypeError` is a
`Comparison.TypeError` value.

The module layout follows the source:

- `Text` holds `split`, `join` and the whitespace trim.
- `Decimal` holds the string rendering of integers and the two-digit idiom.
- `Assoc` holds the object built by successive key assignments. Both
  `parseQueryString` and `cookie.findAll` build one.
- `SizeFormat`, `DateFormat`, `Comparators`, `ModelNames`, `QueryString`,
  `Cookies` and `PluginConfig` hold one helper each.

Every operation has a partner it is proved against:

- `formatDate`: a strict reader of the display string, with a round-trip
  lemma.
- `formatSize`: the bracketing powers of 1024, shown to fix the unit uniquely.
- The comparators: direction reversal, antisymmetry and transitivity.
- `getModelClassByName`: its inverse.
- The parsers and the cookie reader: the law of the last assignment and the
  law for concatenated inputs.
- The registry: a reference definition as "the last exposed route".

Where the code and its own comments disagree, the model follows the code:

- `formatDate`'s doc comment says the resolution defaults to "day". The code
  falls back to `DATE_MONTH`, so a missing resolution shows only the month and
  the year.
- `formatSize` gives two decimals only strictly above 1073741824 bytes.
  Exactly 1 GiB gets one decimal ("1.0 GB").
- At 1024 TB and beyond, the table lookup runs off the end and the unit is
  `undefined`. The string then ends in "undefined"; nothing throws.
- `localeComparator` is not antisymmetric when one model lacks the sort field
  and the other holds a string there. In one order, `undefined > s` and
  `undefined < s` are both false, so the answer is 0. In the other order, the
  string is collated against `undefined`, which is in general not 0. The
  antisymmetry and transitivity lemmas therefore ask that the primary values
  are all strings or all not.

## Model

| member | source | states |
|---|---|---|
| DateFormat.FormatDate | clients/web/src/utilities/MiscFunctions.js:14-36 | The display always starts with the month's name, taken from the month table at the date's 0-based month index. |
| DateFormat.DisplayTokens | clients/web/src/utilities/MiscFunctions.js:17-33 | The display is its tokens joined by single spaces. The tokens are the month name; then "day," from the day resolution on; then the year; then "at" and the clock from the minute resolution on. The clock gains ":ss" at the second resolution. A missing resolution counts as the month resolution. |
| DateFormat.DefaultResolutionIsMonth | clients/web/src/utilities/MiscFunctions.js:19 | Without a resolution the display is only the month name and the year, the same as at the month resolution; no day and no clock appear. |
| DateFormat.ParseFormatRoundTrip | clients/web/src/utilities/MiscFunctions.js:14-36 | A valid date's display reads back as exactly the part of the date its resolution shows. Each field appears when, and only when, the resolution reaches it. |
| DateFormat.SameDisplaySameView | clients/web/src/utilities/MiscFunctions.js:14-36 | Two valid dates with equal displays agree on every field the resolution shows, so the display loses nothing it claims to show. |
| DateFormat.ParseClockInverts | clients/web/src/utilities/MiscFunctions.js:28-32 | The time part reads back to the same hours, minutes and seconds. Hours are written unpadded; minutes and seconds take two digits. |
| Decimal.TwoDigits | clients/web/src/utilities/MiscFunctions.js:28-32 | `('0' + n).slice(-2)` is, for n below 100, exactly two decimal digits denoting n. |
| Decimal.ParseTwoDigitsInverts | clients/web/src/utilities/MiscFunctions.js:28-32 | Reading a two-digit rendering of n below 100 gives back n. |
| Decimal.NatToString | clients/web/src/utilities/MiscFunctions.js:22-28 | The string form of a day, year or hour count is a non-empty run of digits. It has one digit exactly below ten and never a leading zero otherwise. |
| Decimal.ParseIntToString | clients/web/src/utilities/MiscFunctions.js:25 | The year's rendering, negative years included, reads back to the same year. |
| Decimal.NatToStringOfParse | clients/web/src/utilities/MiscFunctions.js:22-28 | A canonical numeral is the one and only rendering of its value, so the reading is injective on renderings. |
| SizeFormat.Precision | clients/web/src/utilities/MiscFunctions.js:42-48 | No decimals exactly below 1024 bytes; two decimals exactly above 1073741824 bytes; one otherwise. |
| SizeFormat.ScaleDown | clients/web/src/utilities/MiscFunctions.js:50-53 | After the loop, the scaled value times 1024^i is the byte count and is below 1024. 1024^i is at most the count when i > 0, and the count is below 1024^(i+1). |
| SizeFormat.FormatSize | clients/web/src/utilities/MiscFunctions.js:41-57 | The precision as above. The unit index is the power of 1024 that brackets the count. The scaled value lies in [1, 1024) from 1 KiB on. The unit is present iff the count is below 1024^5, and it is the table entry at that index. Two decimals iff the unit index is at least 3, except at index 3 with scaled value 1. |
| SizeFormat.UnitIndexUnique | clients/web/src/utilities/MiscFunctions.js:50-56 | Only one number of divisions brackets a byte count, so the unit is determined by the count. |
| SizeFormat.UnitIndexBelowTableLength | clients/web/src/utilities/MiscFunctions.js:55-56 | The unit lookup stays inside the five-entry table exactly when the count is below 1024^5. |
| SizeFormat.TwoDecimalsByUnit | clients/web/src/utilities/MiscFunctions.js:43-56 | A count gets two decimals exactly when its unit index is at least 3 (GB, TB, or past the end of the table from 1024^5 bytes on) and it is not exactly 1 GiB (index 3 with scaled value 1). The strict `>` gives that one count a single decimal. |
| Comparators.Get | clients/web/src/utilities/MiscFunctions.js:100-101 | A held attribute reads as its value; an attribute the model does not hold reads as `undefined`. |
| Comparators.Fallback | clients/web/src/utilities/MiscFunctions.js:113 | The generic comparison answers the direction when a1 > a2, its negation when a1 < a2, and 0 when neither holds. |
| Comparators.LocaleComparator | clients/web/src/utilities/MiscFunctions.js:99-114 | The comparator throws exactly when the first model's primary value is `null`, or when all of these hold: the primary value is a string; its scaled collation is 0; a non-empty secondary field is set; and the first model's secondary value is not a string. A primary value that is neither a string nor `null` gets the generic comparison scaled by `sortDir`. A tied string primary with a string secondary value gets the secondary collation scaled by `sortDir`. |
| Comparators.PrimaryDecides | clients/web/src/utilities/MiscFunctions.js:103-107 | When the scaled primary collation is non-zero, or no secondary field is set, the answer is that collation. No other attribute matters. |
| Comparators.SecondaryDecides | clients/web/src/utilities/MiscFunctions.js:105-110 | When the scaled primary collation is 0, a secondary field is set and the first secondary value is a string, the answer is the scaled secondary collation. The primary values do not matter beyond the tie. |
| Comparators.ReverseDirection | clients/web/src/utilities/MiscFunctions.js:99-114 | Negating the sort direction negates every answer and keeps every throw. |
| Comparators.ComparatorAntisymmetric | clients/web/src/utilities/MiscFunctions.js:99-114 | The answer negates when the models are swapped, given all of these: neither primary value is `null`; the collation is antisymmetric on strings; the generic order is a strict order, with no totality needed; the two primary values are both strings or both not; and both secondary values are strings whenever a secondary field is set. |
| Comparators.MissingFieldAgainstString | clients/web/src/utilities/MiscFunctions.js:103-113 | A model lacking the sort field against one holding a string answers 0, because `<` leaves `undefined` and the string unordered. Swapped, the answer is the string collated against `undefined`. Whenever that is not 0, swapping the models does not negate the answer. |
| Comparators.MissingFieldWitness | clients/web/src/utilities/MiscFunctions.js:103-113 | A collation antisymmetric on strings and a strict order exist for which a missing field against "x" answers 0 one way and 1 the other. |
| Comparators.ComparatorTransitiveOthers | clients/web/src/utilities/MiscFunctions.js:103-113 | When the first two primary values are not strings and `<` is a strict order, two negative answers in a row give a negative answer, for either sort direction. |
| Comparators.ComparatorTransitiveStrings | clients/web/src/utilities/MiscFunctions.js:103-110 | With three string primary values, and string secondary values whenever a secondary field is set, two negative answers in a row give a negative answer. This needs a collation that is antisymmetric and transitive, for strict answers and for ties. The primary collation decides unless it ties; then the secondary one decides. |
| Comparators.LocaleSort | clients/web/src/utilities/MiscFunctions.js:119-124 | It throws exactly when the first value is `null`. A string is collated. Any other value gets 1 when a1 > a2, -1 when a1 < a2, and 0 otherwise. |
| Comparators.LocaleSortAntisymmetric | clients/web/src/utilities/MiscFunctions.js:123 | On values that are neither strings nor `null`, swapping the arguments negates the answer when `<` is a strict order. `undefined` is included, which `<` leaves unordered against everything. |
| Comparators.LocaleSortTransitive | clients/web/src/utilities/MiscFunctions.js:123 | On values that are not strings, the answers order transitively when `<` is a strict order. |
| ModelNames.ModelClassName | clients/web/src/utilities/MiscFunctions.js:130-133 | The class name is the collection name with its first character upper-cased and the rest kept, followed by "Model". The empty name gives "Model". |
| ModelNames.CollectionNameInverts | clients/web/src/utilities/MiscFunctions.js:130-133 | A name whose first character is not an upper-case letter is recovered from its class name. |
| ModelNames.ModelClassNameInjective | clients/web/src/utilities/MiscFunctions.js:130-133 | Distinct such names never share a class name. |
| QueryString.SegmentEntry | clients/web/src/utilities/MiscFunctions.js:140-147 | A segment assigns the text before its first `=`. It has a value iff it holds exactly one `=`, and then the segment is `key=value`. |
| QueryString.ParseQueryString | clients/web/src/utilities/MiscFunctions.js:135-156 | The empty query string gives no parameters. Otherwise the parameter names are exactly the segments' keys. |
| QueryString.ParseLastSegmentDecides | clients/web/src/utilities/MiscFunctions.js:138-153 | A parameter's value is the one given by the last segment that names it. |
| QueryString.ParseLastWins | clients/web/src/utilities/MiscFunctions.js:150-152 | Two non-empty query strings joined by `&` parse to the first's parameters overridden by the second's. |
| QueryString.SingleParam | clients/web/src/utilities/MiscFunctions.js:139-147 | `name=value` without delimiters is exactly the one parameter `name` with that value. |
| QueryString.RepeatedName | clients/web/src/utilities/MiscFunctions.js:150-152 | `a=x&b=y&a=z` gives a = z and b = y. |
| QueryString.TwoEquals | clients/web/src/utilities/MiscFunctions.js:143-146 | A segment `a=b=c` names `a` but leaves it `undefined`. |
| Assoc.AssignKeys | clients/web/src/utilities/MiscFunctions.js:150-152 | After the assignments, the object's keys are exactly the keys that were assigned. |
| Assoc.AssignLastFor | clients/web/src/utilities/MiscFunctions.js:150-152 | A key holds the value of its last assignment. |
| Assoc.AssignAppend | clients/web/src/utilities/MiscFunctions.js:150-152 | Two runs of assignments give the first run's object overridden by the second run's. |
| Cookies.PairEntry | clients/web/src/utilities/MiscFunctions.js:167-174 | A pair names the text before its first `=`. Its value is `null` iff it holds no `=`. Otherwise the value is the text after the first `=` with every further `=` deleted. |
| Cookies.FindAll | clients/web/src/utilities/MiscFunctions.js:159-177 | The cookie names are exactly the trimmed segments' names. |
| Cookies.Find | clients/web/src/utilities/MiscFunctions.js:179-189 | The result is `findAll()`'s value for the name, or `null` when `findAll()` has no such name. |
| Cookies.FindIn | clients/web/src/utilities/MiscFunctions.js:180-188 | Visiting every cookie of a list and keeping the value of the one whose name matches yields that cookie's value. It yields `null` when no cookie has the name. |
| Cookies.LastSegmentDecides | clients/web/src/utilities/MiscFunctions.js:161-175 | A cookie's value is the one given by the last segment that names it. |
| Cookies.FindAllEmpty | clients/web/src/utilities/MiscFunctions.js:159-177 | An empty cookie string yields one cookie, with the empty name and a `null` value. |
| Cookies.FindAllLastWins | clients/web/src/utilities/MiscFunctions.js:161-175 | Two cookie strings joined by `;` give the first's cookies overridden by the second's. |
| Cookies.EmbeddedEqualsDropped | clients/web/src/utilities/MiscFunctions.js:171-173 | `name=x=y` gives the cookie `name` the value `xy`. |
| Text.TrimCutsOnlyWhitespace | clients/web/src/utilities/MiscFunctions.js:164 | Trimming removes the longest whitespace run from each end and nothing else. The result neither starts nor ends with whitespace. |
| Text.TrimIdempotent | clients/web/src/utilities/MiscFunctions.js:164 | Trimming an already trimmed segment changes nothing. |
| Text.JoinEmptyRemovesSeparators | clients/web/src/utilities/MiscFunctions.js:172 | Splitting at `=` and joining with the empty string deletes every `=`. |
| Text.Split | clients/web/src/utilities/MiscFunctions.js:140 | Splitting at a one-character separator gives one piece more than there are separators, and no piece holds the separator. |
| Text.SplitJoin | clients/web/src/utilities/MiscFunctions.js:161-172 | Joining pieces free of the separator and splitting again gives back the pieces. |
| PluginConfig.Empty | clients/web/src/utilities/MiscFunctions.js:193 | No plugin has a route before any is exposed. |
| PluginConfig.GetRoute | clients/web/src/utilities/MiscFunctions.js:204-206 | A route is found exactly for the plugins that exposed one. |
| PluginConfig.Expose | clients/web/src/utilities/MiscFunctions.js:200-202 | Afterwards the plugin's route is the new one, and every other plugin's route is unchanged. |
| PluginConfig.LastExposeWins | clients/web/src/utilities/MiscFunctions.js:193-206 | Starting empty, a plugin's route is the one from its most recent `exposePluginConfig` call. It is absent when no call named it. |

## Left out

- `girder.confirm` is dialog glue over jQuery, a template and a callback. It has no logic of its own.
- `formatDate`'s date parsing (`replace(' ', 'T')` and `new Date`) and the local-time getters are left out. The model starts from the values the getters return. Time zones and invalid dates are not modelled.
- The `toFixed` rendering of the scaled size is left out, along with floating point in general. Division by 1024 is exact in binary floating point and is modelled with `real`.
- `decodeURI` in `parseQueryString` is left out. The model takes the already-decoded string, and the `URIError` on a malformed escape is not modelled.
- `document.cookie` is a parameter, the cookie string.
- `String.prototype.localeCompare` and the generic relational `<` are parameters, `collate` and `less`. Their laws appear as requirements of the lemmas that need them.
- Keys that JavaScript objects inherit or treat specially (`__proto__`, `constructor`, `toString`) are not modelled. Every object is a plain map.
- Non-string arguments to `parseQueryString`, `getModelClassByName` and `cookie.find` are not modelled. The falsy-but-not-empty query strings (`undefined`, `null`) are among them.
- DateFormat.EffectiveResolution: `resolution || DATE_MONTH` is modelled for a missing resolution only. Other falsy values (`null`, `NaN`, `0`) also fall back to the month resolution, and `0` already is that resolution.
- ModelNames.ModelClassName: upper-cases ASCII letters only. Full Unicode case mapping, which can lengthen the first character (`'ß'` becomes `"SS"`), is not modelled.
- Comparators.LocaleComparator: a primary value counts as collatable only when it is a string. Other objects that happen to carry a `localeCompare` method are not modelled. `NaN` from the collation is not modelled either.
- The `_.each` traversal order in `cookie.find` is not modelled. Object keys are distinct, so at most one key matches, and any order gives the same result.

=== FILE: assoc.dfy ===
/** A JavaScript object filled by assigning key/value pairs one after another
    (`obj[key] = value`, or `_.extend(obj, {key: value})`): every key that was
    assigned is present, and a later assignment to a key overwrites an earlier
    one. */
module Assoc {

  /** The keys a sequence of assignments writes. */
  function KeysOf<V>(entries: seq<(string, V)>): set<string>
  {
    set i | 0 <= i < |entries| :: entries[i].0
  }

  /** No assignment after the `i`-th writes the same key. */
  predicate LastFor<V>(entries: seq<(string, V)>, i: nat)
    requires i < |entries|
  {
    forall j :: i < j < |entries| ==> entries[j].0 != entries[i].0
  }

  /** The object that results from performing the assignments in order,
      starting from an empty one. */
  function Assign<V>(entries: seq<(string, V)>): (m: map<string, V>)
    ensures |entries| > 0 ==> entries[|entries| - 1].0 in m && m[entries[|entries| - 1].0] == entries[|entries| - 1].1
    decreases |entries|
  {
    if |entries| == 0 then map[]
    else
      var last := entries[|entries| - 1];
      Assign(entries[..|entries| - 1])[last.0 := last.1]
  }

  /** Every key that was assigned is present, and no other. */
  lemma {:induction false} AssignKeys<V>(entries: seq<(string, V)>)
    ensures Assign(entries).Keys == KeysOf(entries)
    decreases |entries|
  {
    if |entries| > 0 {
      var init := entries[..|entries| - 1];
      var last := entries[|entries| - 1];
      AssignKeys(init);
      forall k | k in KeysOf(entries) ensures k in KeysOf(init) + {last.0} {
        var i :| 0 <= i < |entries| && entries[i].0 == k;
        if i < |init| {
          assert init[i] == entries[i];
        }
      }
      forall k | k in KeysOf(init) ensures k in KeysOf(entries) {
        var i :| 0 <= i < |init| && init[i].0 == k;
        assert entries[i] == init[i];
      }
    }
  }

  /** A key holds the value of its last assignment. */
  lemma {:induction false} AssignLastFor<V>(entries: seq<(string, V)>, i: nat)
    requires i < |entries| && LastFor(entries, i)
    ensures entries[i].0 in Assign(entries) && Assign(entries)[entries[i].0] == entries[i].1
    decreases |entries|
  {
    if i < |entries| - 1 {
      var init := entries[..|entries| - 1];
      assert init[i] == entries[i];
      assert LastFor(init, i);
      AssignLastFor(init, i);
      assert entries[|entries| - 1].0 != entries[i].0;
    }
  }

  /** Performing two runs of assignments one after the other is the first
      run's object overridden by the second run's. */
  lemma {:induction false} AssignAppend<V>(a: seq<(string, V)>, b: seq<(string, V)>)
    ensures Assign(a + b) == Assign(a) + Assign(b)
    decreases |b|
  {
    if |b| > 0 {
      var ab := a + b;
      var init, last := b[..|b| - 1], b[|b| - 1];
      assert ab[..|ab| - 1] == a + init;
      assert ab[|ab| - 1] == last;
      AssignAppend(a, init);
      UpdateAfterUnion(Assign(a), Assign(init), last.0, last.1);
    } else {
      assert a + b == a;
    }
  }

  /** Updating a union updates its right operand. */
  lemma UpdateAfterUnion<V>(m1: map<string, V>, m2: map<string, V>, k: string, v: V)
    ensures (m1 + m2)[k := v] == m1 + m2[k := v]
  {
    var l, r := (m1 + m2)[k := v], m1 + m2[k := v];
    assert l.Keys == r.Keys;
    forall x | x in l ensures l[x] == r[x] {
    }
  }

  /** Overwriting a key keeps the other keys' values. */
  lemma OverwriteKeepsOthers<V>(a: string, b: string, v1: V, v2: V, v3: V)
    requires a != b
    ensures map[a := v1] + map[b := v2] + map[a := v3] == map[a := v3, b := v2]
  {
    var l := map[a := v1] + map[b := v2] + map[a := v3];
    var r := map[a := v3, b := v2];
    assert l.Keys == r.Keys;
    assert forall k | k in l :: l[k] == r[k];
  }
}

=== FILE: comparators.dfy ===
/** `girder.localeComparator` and `girder.localeSort`: comparators that sort
    strings with the locale's collation and everything else with the
    language's generic `<`.

    The locale's collation (`String.prototype.localeCompare`) and the generic
    relational `<` are not defined here: both are parameters, `collate` and
    `less`. `a > b` in the comparators is `less(b, a)`, as the language
    defines it. */
module Comparators {
  import opened Options

  /** An attribute value as a comparator sees it: `undefined`, `null` (which
      passes the `!== undefined` test but has no properties to read), a
      string (which has a `localeCompare` method), or any other value. */
  datatype Field<V> = Undefined | Null | Text(s: string) | Other(v: V)

  /** A Backbone model's attributes; `model.get(attr)` of an attribute that
      is not set is `undefined`. */
  type Attributes<V> = map<string, Field<V>>

  function Get<V>(model: Attributes<V>, attr: string): (value: Field<V>)
    ensures attr !in model ==> value.Undefined?
    ensures attr in model ==> value == model[attr]
  {
    if attr in model then model[attr] else Undefined
  }

  /** The collection properties the comparator reads through `this`. */
  datatype SortOrder = SortOrder(sortField: string, secondarySortField: Option<string>, sortDir: int)

  /** `!this.secondarySortField` is false: a secondary field is set and is
      not the empty string. */
  predicate HasSecondary(order: SortOrder)
  {
    order.secondarySortField.Some? && order.secondarySortField.value != ""
  }

  /** A comparator's answer. `TypeError` is the exception thrown when the
      comparator calls `localeCompare` on a value that has no such method. */
  datatype Comparison = Ordered(order: int) | TypeError {
    function Negate(): Comparison
    {
      match this
      case Ordered(n) => Ordered(-n)
      case TypeError => TypeError
    }
  }

  /** `a1 > a2 ? dir : (a1 < a2 ? -dir : 0)`. */
  function Fallback<V>(less: (Field<V>, Field<V>) -> bool, a1: Field<V>, a2: Field<V>, dir: int): (r: int)
    ensures r == dir || r == -dir || r == 0
    ensures less(a2, a1) ==> r == dir
    ensures !less(a2, a1) && less(a1, a2) ==> r == -dir
    ensures !less(a2, a1) && !less(a1, a2) ==> r == 0
  {
    if less(a2, a1) then dir else if less(a1, a2) then -dir else 0
  }

  /** `localeComparator(model1, model2)` with `this` the collection. A `null`
      primary value throws, since reading `localeCompare` of `null` does. A
      string primary value is collated and scaled by `sortDir`; when that
      gives 0 and a secondary field is set, the secondary values are collated
      instead, which throws when the first of them is not a string. Other
      primary values fall back to the generic comparison. */
  function LocaleComparator<V>(order: SortOrder, collate: (string, Field<V>) -> int,
                               less: (Field<V>, Field<V>) -> bool,
                               model1: Attributes<V>, model2: Attributes<V>): (r: Comparison)
    ensures r.TypeError? <==>
              || Get(model1, order.sortField).Null?
              || (&& Get(model1, order.sortField).Text?
                  && collate(Get(model1, order.sortField).s, Get(model2, order.sortField)) * order.sortDir == 0
                  && HasSecondary(order)
                  && !Get(model1, order.secondarySortField.value).Text?)
    ensures !Get(model1, order.sortField).Text? && !Get(model1, order.sortField).Null? ==>
              r == Ordered(Fallback(less, Get(model1, order.sortField), Get(model2, order.sortField), order.sortDir))
    ensures && Get(model1, order.sortField).Text?
            && collate(Get(model1, order.sortField).s, Get(model2, order.sortField)) * order.sortDir == 0
            && HasSecondary(order)
            && Get(model1, order.secondarySortField.value).Text?
            ==> r == Ordered(collate(Get(model1, order.secondarySortField.value).s,
                                     Get(model2, order.secondarySortField.value)) * order.sortDir)
  {
    var a1 := Get(model1, order.sortField);
    var a2 := Get(model2, order.sortField);
    if a1.Null? then TypeError
    else if a1.Text? then
      var result := collate(a1.s, a2) * order.sortDir;
      if result != 0 || !HasSecondary(order) then Ordered(result)
      else
        var b1 := Get(model1, order.secondarySortField.value);
        var b2 := Get(model2, order.secondarySortField.value);
        if b1.Text? then Ordered(collate(b1.s, b2) * order.sortDir) else TypeError
    else
      Ordered(Fallback(less, a1, a2, order.sortDir))
  }

  /** `localeSort(a1, a2)`: throws for a `null` first value, collates a
      string, and otherwise reduces the generic comparison to 1, -1 or 0. */
  function LocaleSort<V>(collate: (string, Field<V>) -> int, less: (Field<V>, Field<V>) -> bool,
                         a1: Field<V>, a2: Field<V>): (r: Comparison)
    ensures r.TypeError? <==> a1.Null?
    ensures a1.Text? ==> r == Ordered(collate(a1.s, a2))
    ensures !a1.Text? && !a1.Null? ==> r == Ordered(Fallback(less, a1, a2, 1))
  {
    if a1.Null? then TypeError
    else if a1.Text? then Ordered(collate(a1.s, a2))
    else Ordered(Fallback(less, a1, a2, 1))
  }

  /** `less` is a strict order: irreflexive and transitive, hence
      asymmetric. */
  ghost predicate StrictOrder<V(!new)>(less: (Field<V>, Field<V>) -> bool)
  {
    && (forall x :: !less(x, x))
    && (forall x, y, z :: less(x, y) && less(y, z) ==> less(x, z))
  }

  /** The collation is antisymmetric on strings. */
  ghost predicate AntisymmetricCollation<V>(collate: (string, Field<V>) -> int)
  {
    forall x, y :: collate(x, Text(y)) == -collate(y, Text(x))
  }

  /** The collation is transitive on strings, both for strictly negative
      answers and for ties. */
  ghost predicate TransitiveCollation<V>(collate: (string, Field<V>) -> int)
  {
    && (forall x, y, z :: collate(x, Text(y)) < 0 && collate(y, Text(z)) < 0 ==> collate(x, Text(z)) < 0)
    && (forall x, y, z :: collate(x, Text(y)) == 0 && collate(y, Text(z)) == 0 ==> collate(x, Text(z)) == 0)
  }

  /** When the primary collation decides, or no secondary field is set, the
      comparator answers the scaled primary result and never looks at any
      other attribute: models that agree on the sort field compare alike. */
  lemma PrimaryDecides<V>(order: SortOrder, collate: (string, Field<V>) -> int,
                          less: (Field<V>, Field<V>) -> bool,
                          model1: Attributes<V>, model2: Attributes<V>,
                          other1: Attributes<V>, other2: Attributes<V>)
    requires Get(model1, order.sortField).Text?
    requires collate(Get(model1, order.sortField).s, Get(model2, order.sortField)) * order.sortDir != 0
             || !HasSecondary(order)
    requires Get(other1, order.sortField) == Get(model1, order.sortField)
    requires Get(other2, order.sortField) == Get(model2, order.sortField)
    ensures LocaleComparator(order, collate, less, model1, model2)
            == LocaleComparator(order, collate, less, other1, other2)
            == Ordered(collate(Get(model1, order.sortField).s, Get(model2, order.sortField)) * order.sortDir)
  {
  }

  /** When the primary collation ties and a secondary field is set, a string
      secondary value decides: the answer is the scaled secondary collation,
      whatever the primary values were. */
  lemma SecondaryDecides<V>(order: SortOrder, collate: (string, Field<V>) -> int,
                            less: (Field<V>, Field<V>) -> bool,
                            model1: Attributes<V>, model2: Attributes<V>,
                            other1: Attributes<V>, other2: Attributes<V>)
    requires Get(model1, order.sortField).Text? && Get(other1, order.sortField).Text?
    requires collate(Get(model1, order.sortField).s, Get(model2, order.sortField)) * order.sortDir == 0
    requires collate(Get(other1, order.sortField).s, Get(other2, order.sortField)) * order.sortDir == 0
    requires HasSecondary(order)
    requires Get(model1, order.secondarySortField.value).Text?
    requires Get(other1, order.secondarySortField.value) == Get(model1, order.secondarySortField.value)
    requires Get(other2, order.secondarySortField.value) == Get(model2, order.secondarySortField.value)
    ensures LocaleComparator(order, collate, less, model1, model2)
            == LocaleComparator(order, collate, less, other1, other2)
            == Ordered(collate(Get(model1, order.secondarySortField.value).s,
                               Get(model2, order.secondarySortField.value)) * order.sortDir)
  {
  }

  /** Flipping `sortDir` reverses every answer of the comparator. */
  lemma ReverseDirection<V>(order: SortOrder, collate: (string, Field<V>) -> int,
                            less: (Field<V>, Field<V>) -> bool,
                            model1: Attributes<V>, model2: Attributes<V>)
    ensures LocaleComparator(order.(sortDir := -order.sortDir), collate, less, model1, model2)
            == LocaleComparator(order, collate, less, model1, model2).Negate()
  {
    var a1 := Get(model1, order.sortField);
    var a2 := Get(model2, order.sortField);
    if a1.Text? {
      var c := collate(a1.s, a2);
      assert c * -order.sortDir == -(c * order.sortDir);
      if HasSecondary(order) {
        var b1 := Get(model1, order.secondarySortField.value);
        var b2 := Get(model2, order.secondarySortField.value);
        if b1.Text? {
          assert collate(b1.s, b2) * -order.sortDir == -(collate(b1.s, b2) * order.sortDir);
        }
      }
    }
  }

  /** Swapping the models negates the answer when both primary values are
      strings (and, where the secondary field is reached, both secondary
      values are strings), or when neither primary value is a string and
      neither is `null`; `less` needs only to be a strict order, since two
      non-string values it leaves unordered (such as `undefined` against a
      number) compare as 0 both ways. A string against a value that is not
      one is excluded: `MissingFieldAgainstString` shows that case is not
      antisymmetric. */
  lemma ComparatorAntisymmetric<V(!new)>(order: SortOrder, collate: (string, Field<V>) -> int,
                                   less: (Field<V>, Field<V>) -> bool,
                                   model1: Attributes<V>, model2: Attributes<V>)
    requires AntisymmetricCollation(collate)
    requires StrictOrder(less)
    requires Get(model1, order.sortField).Text? == Get(model2, order.sortField).Text?
    requires HasSecondary(order) ==>
               Get(model1, order.secondarySortField.value).Text? && Get(model2, order.secondarySortField.value).Text?
    ensures !Get(model1, order.sortField).Null? && !Get(model2, order.sortField).Null? ==>
              LocaleComparator(order, collate, less, model2, model1)
              == LocaleComparator(order, collate, less, model1, model2).Negate()
  {
    var a1 := Get(model1, order.sortField);
    var a2 := Get(model2, order.sortField);
    var dir := order.sortDir;
    if a1.Null? || a2.Null? {
    } else if a1.Text? {
      var c := collate(a1.s, a2);
      assert collate(a2.s, a1) == -c;
      assert -c * dir == -(c * dir);
      if HasSecondary(order) {
        var b1 := Get(model1, order.secondarySortField.value);
        var b2 := Get(model2, order.secondarySortField.value);
        assert collate(b2.s, b1) == -collate(b1.s, b2);
        assert -collate(b1.s, b2) * dir == -(collate(b1.s, b2) * dir);
      }
    } else {
      assert less(a1, a2) ==> !less(a2, a1);
    }
  }

  /** A model that lacks the sort field against one that holds a string:
      `undefined > s` and `undefined < s` are both false, so one order
      answers 0, while the other collates the string against `undefined`.
      Whenever that collation is not 0, swapping the models does not negate
      the answer. */
  lemma MissingFieldAgainstString<V>(order: SortOrder, collate: (string, Field<V>) -> int,
                                     less: (Field<V>, Field<V>) -> bool,
                                     model1: Attributes<V>, model2: Attributes<V>, s: string)
    requires order.sortField !in model1
    requires Get(model2, order.sortField) == Text(s)
    requires !less(Undefined, Text(s)) && !less(Text(s), Undefined)
    ensures LocaleComparator(order, collate, less, model1, model2) == Ordered(0)
    ensures collate(s, Undefined) * order.sortDir != 0 ==>
              && LocaleComparator(order, collate, less, model2, model1) == Ordered(collate(s, Undefined) * order.sortDir)
              && LocaleComparator(order, collate, less, model2, model1)
                 != LocaleComparator(order, collate, less, model1, model2).Negate()
  {
  }

  /** The case above arises under laws that satisfy every requirement of
      `ComparatorAntisymmetric` except the one on the primary values: a
      collation that is antisymmetric on strings but ranks strings above
      everything else, and the empty strict order. */
  lemma MissingFieldWitness()
    ensures var collate := (x: string, f: Field<int>) => if f.Text? then 0 else 1;
            var less := (f: Field<int>, g: Field<int>) => false;
            var order := SortOrder("name", None, 1);
            var model1: Attributes<int> := map[];
            var model2: Attributes<int> := map["name" := Text("x")];
            && AntisymmetricCollation(collate)
            && StrictOrder(less)
            && LocaleComparator(order, collate, less, model1, model2) == Ordered(0)
            && LocaleComparator(order, collate, less, model2, model1) == Ordered(1)
  {
    var collate := (x: string, f: Field<int>) => if f.Text? then 0 else 1;
    var less := (f: Field<int>, g: Field<int>) => false;
    var model2: Attributes<int> := map["name" := Text("x")];
    MissingFieldAgainstString(SortOrder("name", None, 1), collate, less, map[], model2, "x");
  }

  /** Scaling by `sortDir` keeps the collation's laws: for any direction,
      strictly negative scaled answers compose, ties compose, and a strict
      answer followed by a tie (or the reverse) stays strict. */
  lemma ScaledCollationTransitive<V>(collate: (string, Field<V>) -> int, dir: int, x: string, y: string, z: string)
    requires AntisymmetricCollation(collate)
    requires TransitiveCollation(collate)
    ensures collate(x, Text(y)) * dir < 0 && collate(y, Text(z)) * dir < 0 ==> collate(x, Text(z)) * dir < 0
    ensures collate(x, Text(y)) * dir < 0 && collate(y, Text(z)) * dir == 0 ==> collate(x, Text(z)) * dir < 0
    ensures collate(x, Text(y)) * dir == 0 && collate(y, Text(z)) * dir < 0 ==> collate(x, Text(z)) * dir < 0
    ensures collate(x, Text(y)) * dir == 0 && collate(y, Text(z)) * dir == 0 ==> collate(x, Text(z)) * dir == 0
  {
    var xy, yz, xz := collate(x, Text(y)), collate(y, Text(z)), collate(x, Text(z));
    assert collate(y, Text(x)) == -xy && collate(z, Text(y)) == -yz && collate(z, Text(x)) == -xz;
    if dir == 0 {
    } else {
      SignOfScaled(xy, dir);
      SignOfScaled(yz, dir);
      SignOfScaled(xz, dir);
      if xy < 0 && yz == 0 {
        // x ~ z would give x ~ y through z ~ y; z < x would give z < y.
        assert xz < 0;
      }
      if xy == 0 && yz < 0 {
        assert xz < 0;
      }
      if xy > 0 && yz == 0 {
        assert xz > 0;
      }
      if xy == 0 && yz > 0 {
        assert xz > 0;
      }
      if xy > 0 && yz > 0 {
        assert collate(z, Text(y)) < 0 && collate(y, Text(x)) < 0;
      }
    }
  }

  /** The sign of a product with a non-zero direction. */
  lemma SignOfScaled(c: int, dir: int)
    requires dir != 0
    ensures c * dir < 0 <==> (c < 0 && dir > 0) || (c > 0 && dir < 0)
    ensures c * dir == 0 <==> c == 0
  {
    if c == 0 {
    } else if (c > 0) == (dir > 0) {
      ProductOfSameSigns(c, dir);
    } else {
      ProductOfSameSigns(-c, dir);
      assert c * dir == -((-c) * dir);
    }
  }

  lemma ProductOfSameSigns(c: int, dir: int)
    requires c != 0 && dir != 0 && (c > 0) == (dir > 0)
    ensures c * dir > 0
  {
    if c < 0 {
      assert c * dir == (-c) * (-dir);
    }
  }

  /** The comparator orders transitively on models whose primary values are
      not strings, when `less` is a strict order: the generic comparison
      scaled by either direction composes. */
  lemma ComparatorTransitiveOthers<V(!new)>(order: SortOrder, collate: (string, Field<V>) -> int,
                                            less: (Field<V>, Field<V>) -> bool,
                                            model1: Attributes<V>, model2: Attributes<V>, model3: Attributes<V>)
    requires StrictOrder(less)
    requires !Get(model1, order.sortField).Text? && !Get(model2, order.sortField).Text?
    requires LocaleComparator(order, collate, less, model1, model2).Ordered?
    requires LocaleComparator(order, collate, less, model1, model2).order < 0
    requires LocaleComparator(order, collate, less, model2, model3).Ordered?
    requires LocaleComparator(order, collate, less, model2, model3).order < 0
    ensures LocaleComparator(order, collate, less, model1, model3).Ordered?
    ensures LocaleComparator(order, collate, less, model1, model3).order < 0
  {
    var a1, a2, a3 := Get(model1, order.sortField), Get(model2, order.sortField), Get(model3, order.sortField);
    if order.sortDir > 0 {
      assert less(a1, a2) && less(a2, a3);
      assert less(a1, a3);
      assert !less(a3, a1);
    } else {
      assert less(a2, a1) && less(a3, a2);
      assert less(a3, a1);
    }
  }

  /** The comparator orders transitively on models whose primary values are
      strings, with string secondary values whenever a secondary field is
      set, when the collation is antisymmetric and transitive on strings:
      the primary collation decides unless it ties, and then the secondary
      one does. */
  lemma ComparatorTransitiveStrings<V>(order: SortOrder, collate: (string, Field<V>) -> int,
                                       less: (Field<V>, Field<V>) -> bool,
                                       model1: Attributes<V>, model2: Attributes<V>, model3: Attributes<V>)
    requires AntisymmetricCollation(collate)
    requires TransitiveCollation(collate)
    requires Get(model1, order.sortField).Text? && Get(model2, order.sortField).Text?
    requires Get(model3, order.sortField).Text?
    requires HasSecondary(order) ==>
               && Get(model1, order.secondarySortField.value).Text?
               && Get(model2, order.secondarySortField.value).Text?
               && Get(model3, order.secondarySortField.value).Text?
    requires LocaleComparator(order, collate, less, model1, model2).Ordered?
    requires LocaleComparator(order, collate, less, model1, model2).order < 0
    requires LocaleComparator(order, collate, less, model2, model3).Ordered?
    requires LocaleComparator(order, collate, less, model2, model3).order < 0
    ensures LocaleComparator(order, collate, less, model1, model3).Ordered?
    ensures LocaleComparator(order, collate, less, model1, model3).order < 0
  {
    var dir := order.sortDir;
    var a1, a2, a3 := Get(model1, order.sortField).s, Get(model2, order.sortField).s, Get(model3, order.sortField).s;
    ScaledCollationTransitive(collate, dir, a1, a2, a3);
    if HasSecondary(order) {
      var f := order.secondarySortField.value;
      var b1, b2, b3 := Get(model1, f).s, Get(model2, f).s, Get(model3, f).s;
      ScaledCollationTransitive(collate, dir, b1, b2, b3);
    }
  }

  /** For values that are neither strings nor `null`, `localeSort` is
      antisymmetric when `less` is a strict order. */
  lemma LocaleSortAntisymmetric<V(!new)>(collate: (string, Field<V>) -> int, less: (Field<V>, Field<V>) -> bool,
                                   a: Field<V>, b: Field<V>)
    requires StrictOrder(less)
    requires !a.Text? && !b.Text?
    ensures !a.Null? && !b.Null? ==> LocaleSort(collate, less, a, b) == LocaleSort(collate, less, b, a).Negate()
  {
    assert less(a, b) ==> !less(b, a);
  }

  /** For values that are not strings and a strict order `less`, `localeSort`
      orders transitively (a `null` first value throws, so it orders
      nothing). */
  lemma LocaleSortTransitive<V(!new)>(collate: (string, Field<V>) -> int, less: (Field<V>, Field<V>) -> bool,
                                a: Field<V>, b: Field<V>, c: Field<V>)
    requires StrictOrder(less)
    requires !a.Text? && !b.Text? && !c.Text?
    requires LocaleSort(collate, less, a, b).Ordered? && LocaleSort(collate, less, a, b).order < 0
    requires LocaleSort(collate, less, b, c).Ordered? && LocaleSort(collate, less, b, c).order < 0
    ensures LocaleSort(collate, less, a, c).Ordered? && LocaleSort(collate, less, a, c).order < 0
  {
    assert less(a, b) && less(b, c);
    assert less(a, c);
  }
}

=== FILE: cookies.dfy ===
/** `girder.cookie`: reading the browser's cookie string into an object of
    cookie values. The cookie string is a parameter here; the browser reads
    it from `document.cookie`. */
module Cookies {
  import opened Options
  import opened Text
  import Assoc

  /** Cookie values by name. None is a cookie whose value is `null`. */
  type Jar = map<string, Option<string>>

  /** What one trimmed `;`-separated pair assigns: the text before its first
      `=` as the name; `null` when there is no `=`; otherwise the text after
      the first `=` with every further `=` deleted, since the pieces after the
      first are joined with the empty string. */
  function PairEntry(pair: string): (e: (string, Option<string>))
    ensures e.0 == BeforeFirst(pair, '=')
    ensures e.1.None? <==> '=' !in pair
    ensures '=' in pair ==> e.1 == Some(RemoveAll(AfterFirst(pair, '='), '='))
  {
    var arr := Split(pair, '=');
    SplitHead(pair, '=');
    if |arr| > 1 then
      SplitTail(pair, '=');
      JoinEmptyRemovesSeparators(AfterFirst(pair, '='), '=');
      (arr[0], Some(Join(arr[1..], "")))
    else
      (arr[0], None)
  }

  function Entries(segments: seq<string>): (es: seq<(string, Option<string>)>)
    ensures |es| == |segments|
    ensures forall i :: 0 <= i < |segments| ==> es[i] == PairEntry(Trim(segments[i]))
  {
    seq(|segments|, i requires 0 <= i < |segments| => PairEntry(Trim(segments[i])))
  }

  /** `cookie.findAll()`: every `;`-separated segment, once trimmed, names a
      cookie; the last segment for a name decides its value. */
  function FindAll(cookieString: string): (jar: Jar)
    ensures jar.Keys == set segment | segment in Split(cookieString, ';') :: BeforeFirst(Trim(segment), '=')
  {
    var segments := Split(cookieString, ';');
    EntryKeys(segments);
    Assoc.AssignKeys(Entries(segments));
    Assoc.Assign(Entries(segments))
  }

  /** The names the entries assign are the trimmed segments' names. */
  lemma EntryKeys(segments: seq<string>)
    ensures Assoc.KeysOf(Entries(segments)) == set segment | segment in segments :: BeforeFirst(Trim(segment), '=')
  {
    var es := Entries(segments);
    forall k | k in Assoc.KeysOf(es)
      ensures k in set segment | segment in segments :: BeforeFirst(Trim(segment), '=')
    {
      var i :| 0 <= i < |es| && es[i].0 == k;
      assert segments[i] in segments;
    }
    forall k | k in set segment | segment in segments :: BeforeFirst(Trim(segment), '=')
      ensures k in Assoc.KeysOf(es)
    {
      var segment :| segment in segments && BeforeFirst(Trim(segment), '=') == k;
      var i :| 0 <= i < |segments| && segments[i] == segment;
      assert es[i].0 == k;
    }
  }


  /** `cookie.find(name)`: reads a fresh `findAll()` and looks the name up
      in it; `null` when no cookie has that name. */
  method Find(cookieString: string, name: string) returns (cookie: Option<string>)
    ensures name in FindAll(cookieString) ==> cookie == FindAll(cookieString)[name]
    ensures name !in FindAll(cookieString) ==> cookie == None
  {
    var list := FindAll(cookieString);
    cookie := FindIn(list, name);
  }

  /** The traversal inside `cookie.find`: visits every cookie of the list
      and keeps the value of the one whose name matches. */
  method FindIn(list: Jar, name: string) returns (cookie: Option<string>)
    ensures name in list ==> cookie == list[name]
    ensures name !in list ==> cookie == None
  {
    cookie := None;
    var pending := list.Keys;
    while pending != {}
      invariant pending <= list.Keys
      invariant name in list && name !in pending ==> cookie == list[name]
      invariant name !in list || name in pending ==> cookie == None
      decreases pending
    {
      var key :| key in pending;
      if key == name {
        cookie := list[key];
      }
      pending := pending - {key};
    }
  }

  /** The value of a cookie is the one its last segment gives. */
  lemma LastSegmentDecides(cookieString: string, i: nat)
    requires i < |Split(cookieString, ';')|
    requires forall j :: i < j < |Split(cookieString, ';')| ==>
               BeforeFirst(Trim(Split(cookieString, ';')[j]), '=') != BeforeFirst(Trim(Split(cookieString, ';')[i]), '=')
    ensures FindAll(cookieString)[BeforeFirst(Trim(Split(cookieString, ';')[i]), '=')]
            == PairEntry(Trim(Split(cookieString, ';')[i])).1
  {
    var es := Entries(Split(cookieString, ';'));
    assert Assoc.LastFor(es, i);
    Assoc.AssignLastFor(es, i);
  }

  /** A cookie string without `;` is a single cookie. */
  lemma FindAllSingle(pair: string)
    requires ';' !in pair
    ensures FindAll(pair) == map[PairEntry(Trim(pair)).0 := PairEntry(Trim(pair)).1]
  {
    SplitNoSeparator(pair, ';');
    var es := Entries([pair]);
    assert es == [PairEntry(Trim(pair))];
    assert es[..0] == [];
  }

  lemma EntriesAppend(a: seq<string>, b: seq<string>)
    ensures Entries(a + b) == Entries(a) + Entries(b)
  {
  }

  /** The empty cookie string holds one cookie, with the empty name and the
      value `null`. */
  lemma FindAllEmpty()
    ensures FindAll("") == map["" := None]
  {
    FindAllSingle("");
  }

  /** Later segments overwrite earlier ones. */
  lemma FindAllLastWins(first: string, second: string)
    ensures FindAll(first + ";" + second) == FindAll(first) + FindAll(second)
  {
    var a := Split(first, ';');
    var b := Split(second, ';');
    SplitAppend(first, second, ';');
    EntriesAppend(a, b);
    Assoc.AssignAppend(Entries(a), Entries(b));
  }

  /** The `=` inside a cookie value is dropped: `name=x=y` has the value
      `xy`. */
  lemma EmbeddedEqualsDropped(name: string, x: string, y: string)
    requires '=' !in name && ';' !in name && '=' !in x && ';' !in x && '=' !in y && ';' !in y
    requires name != [] && !IsJsSpace(name[0])
    requires y != [] && !IsJsSpace(y[|y| - 1])
    ensures FindAll(name + "=" + (x + "=" + y)) == map[name := Some(x + y)]
  {
    var rest := x + "=" + y;
    var pair := name + "=" + rest;
    assert ';' !in pair;
    assert pair[0] == name[0] && pair[|pair| - 1] == y[|y| - 1];
    TrimUnpadded(pair);
    FirstSeparatorAfter(name, rest, '=');
    RemoveSeparatorBetween(x, y, '=');
    assert PairEntry(pair) == (name, Some(x + y));
    FindAllSingle(pair);
  }
}

=== FILE: date_format.dfy ===
/** The string assembly of `girder.formatDate`: the month name, the day, the
    year, the time and the seconds, each shown only from its resolution on.
    The date arrives already broken into the values `Date`'s local-time
    getters return; parsing the date string is not part of the model. */
module DateFormat {
  import opened Options
  import opened Text
  import opened Decimal

  /** The four resolutions, coarsest first. */
  const ResolutionMonth: int := 0
  const ResolutionDay: int := 1
  const ResolutionMinute: int := 2
  const ResolutionSecond: int := 3

  /** `getMonth()` (0-based), `getDate()`, `getFullYear()`, `getHours()`,
      `getMinutes()` and `getSeconds()` of a valid date. */
  datatype DateParts = DateParts(month: nat, day: nat, year: int, hours: nat, minutes: nat, seconds: nat)

  predicate ValidParts(d: DateParts)
  {
    d.month < 12 && 1 <= d.day <= 31 && d.hours < 24 && d.minutes < 60 && d.seconds < 60
  }

  /** A month-name table the display can be read back with: twelve distinct
      names, none holding a space. */
  predicate ReadableMonths(months: seq<string>)
  {
    && |months| == 12
    && (forall i, j :: 0 <= i < j < |months| ==> months[i] != months[j])
    && (forall i :: 0 <= i < |months| ==> ' ' !in months[i])
  }

  /** `resolution || DATE_MONTH`: a missing resolution is the month
      resolution. */
  function EffectiveResolution(resolution: Option<int>): int
  {
    resolution.GetOr(ResolutionMonth)
  }

  /** The display string: "<Month>", then " <day>," from the day resolution
      on, then " <year>", then " at <hours>:<mm>" from the minute resolution
      on, then ":<ss>" from the second resolution on. Minutes and seconds are
      written with `('0' + n).slice(-2)`, hours and the day as they are. */
  function FormatDate(d: DateParts, resolution: Option<int>, months: seq<string>): (r: string)
    requires d.month < |months|
    ensures |months[d.month]| <= |r| && r[..|months[d.month]|] == months[d.month]
  {
    var res := EffectiveResolution(resolution);
    var withDay := months[d.month] + (if res >= ResolutionDay then " " + NatToString(d.day) + "," else "");
    var withYear := withDay + " " + IntToString(d.year);
    var withMinute :=
      withYear + (if res >= ResolutionMinute then " at " + NatToString(d.hours) + ":" + TwoDigits(d.minutes) else "");
    withMinute + (if res >= ResolutionSecond then ":" + TwoDigits(d.seconds) else "")
  }

  /** The clock part of a display: hours and minutes, and the seconds when
      they are shown. */
  datatype Clock = Clock(hours: nat, minutes: nat, seconds: Option<nat>)

  /** What a display tells about a date. */
  datatype DateView = DateView(month: nat, day: Option<nat>, year: int, clock: Option<Clock>)

  /** The part of a date a resolution shows. */
  function Visible(d: DateParts, res: int): DateView
  {
    DateView(
      d.month,
      if res >= ResolutionDay then Some(d.day) else None,
      d.year,
      if res >= ResolutionMinute then
        Some(Clock(d.hours, d.minutes, if res >= ResolutionSecond then Some(d.seconds) else None))
      else None)
  }

  /** The index of a month name in the table. */
  function MonthIndex(months: seq<string>, name: string): (r: Option<nat>)
    ensures r.Some? ==> r.value < |months| && months[r.value] == name
    ensures r.None? ==> name !in months
  {
    if |months| == 0 then None
    else if months[0] == name then Some(0)
    else
      match MonthIndex(months[1..], name)
      case Some(i) => Some(i + 1)
      case None => None
  }

  /** Reads "<day>," */
  function ParseDay(token: string): Option<nat>
  {
    if |token| >= 1 && token[|token| - 1] == ',' then ParseNat(token[..|token| - 1]) else None
  }

  /** Reads "<hours>:<mm>" or "<hours>:<mm>:<ss>", with unpadded hours. */
  function ParseClock(token: string): Option<Clock>
  {
    var parts := Split(token, ':');
    if |parts| != 2 && |parts| != 3 then None
    else
      var h, m := ParseNat(parts[0]), ParseTwoDigits(parts[1]);
      if h.None? || m.None? then None
      else if |parts| == 2 then Some(Clock(h.value, m.value, None))
      else
        match ParseTwoDigits(parts[2])
        case Some(s) => Some(Clock(h.value, m.value, Some(s)))
        case None => None
  }

  /** Reads a display back, strictly: exactly the shapes FormatDate writes
      are accepted. */
  function ParseDisplay(display: string, months: seq<string>): Option<DateView>
  {
    var tokens := Split(display, ' ');
    match MonthIndex(months, tokens[0])
    case None => None
    case Some(month) =>
      if |tokens| == 2 then
        match ParseInt(tokens[1])
        case Some(year) => Some(DateView(month, None, year, None))
        case None => None
      else if |tokens| == 3 || (|tokens| == 5 && tokens[3] == "at") then
        var day, year := ParseDay(tokens[1]), ParseInt(tokens[2]);
        if day.None? || year.None? then None
        else if |tokens| == 3 then Some(DateView(month, Some(day.value), year.value, None))
        else
          match ParseClock(tokens[4])
          case Some(clock) => Some(DateView(month, Some(day.value), year.value, Some(clock)))
          case None => None
      else None
  }

  lemma MonthIndexOfDistinct(months: seq<string>, i: nat)
    requires i < |months|
    requires forall j, k :: 0 <= j < k < |months| ==> months[j] != months[k]
    ensures MonthIndex(months, months[i]) == Some(i)
  {
    if i > 0 {
      assert months[0] != months[i];
      MonthIndexOfDistinct(months[1..], i - 1);
    }
  }

  lemma DigitsHaveNoSpaceOrColon(s: string)
    requires AllDigits(s)
    ensures ' ' !in s && ':' !in s && ',' !in s
  {
    forall i | 0 <= i < |s| ensures s[i] != ' ' && s[i] != ':' && s[i] != ',' {
      assert IsDigit(s[i]);
    }
  }

  lemma YearHasNoSpace(year: int)
    ensures ' ' !in IntToString(year)
  {
    if year < 0 {
      DigitsHaveNoSpaceOrColon(NatToString(-year));
    } else {
      DigitsHaveNoSpaceOrColon(NatToString(year));
    }
  }

  lemma ParseDayInverts(day: nat)
    ensures ParseDay(NatToString(day) + ",") == Some(day)
  {
    var t := NatToString(day) + ",";
    assert t[..|t| - 1] == NatToString(day);
    ParseNatToString(day);
  }

  lemma ParseClockInverts(hours: nat, minutes: nat, seconds: Option<nat>)
    requires minutes < 60
    requires seconds.Some? ==> seconds.value < 60
    ensures ParseClock(NatToString(hours) + ":" + TwoDigits(minutes)
                       + (if seconds.Some? then ":" + TwoDigits(seconds.value) else ""))
            == Some(Clock(hours, minutes, seconds))
  {
    var h, m := NatToString(hours), TwoDigits(minutes);
    var s := if seconds.Some? then Some(TwoDigits(seconds.value)) else None;
    DigitsHaveNoSpaceOrColon(h);
    DigitsHaveNoSpaceOrColon(m);
    ParseNatToString(hours);
    ParseTwoDigitsInverts(minutes);
    if seconds.Some? {
      DigitsHaveNoSpaceOrColon(s.value);
      ParseTwoDigitsInverts(seconds.value);
    }
    ReadClock(h, m, s, hours, minutes, seconds);
  }

  lemma ReadClock(h: string, m: string, s: Option<string>, hours: nat, minutes: nat, seconds: Option<nat>)
    requires ':' !in h && ':' !in m && (s.Some? ==> ':' !in s.value)
    requires ParseNat(h) == Some(hours) && ParseTwoDigits(m) == Some(minutes)
    requires s.Some? <==> seconds.Some?
    requires s.Some? ==> ParseTwoDigits(s.value) == Some(seconds.value)
    ensures ParseClock(h + ":" + m + (if s.Some? then ":" + s.value else "")) == Some(Clock(hours, minutes, seconds))
  {
    JoinSnoc([h], m, ":");
    assert [h] + [m] == [h, m];
    if s.Some? {
      JoinSnoc([h, m], s.value, ":");
      assert [h, m] + [s.value] == [h, m, s.value];
      assert h + ":" + m + (":" + s.value) == h + ":" + m + ":" + s.value;
      SplitJoin([h, m, s.value], ':');
      assert Split(h + ":" + m + (":" + s.value), ':') == [h, m, s.value];
    } else {
      assert h + ":" + m + "" == h + ":" + m;
      SplitJoin([h, m], ':');
      assert Split(h + ":" + m, ':') == [h, m];
    }
  }

  /** The display is its tokens joined with single spaces. */
  lemma DisplayTokens(d: DateParts, resolution: Option<int>, months: seq<string>)
    requires d.month < |months|
    ensures var res := EffectiveResolution(resolution);
      var name, day, year := months[d.month], NatToString(d.day) + ",", IntToString(d.year);
      var clock := NatToString(d.hours) + ":" + TwoDigits(d.minutes)
                   + (if res >= ResolutionSecond then ":" + TwoDigits(d.seconds) else "");
      FormatDate(d, resolution, months)
        == if res < ResolutionDay then Join([name, year], " ")
           else if res < ResolutionMinute then Join([name, day, year], " ")
           else Join([name, day, year, "at", clock], " ")
  {
    var res := EffectiveResolution(resolution);
    var name, dd, year := months[d.month], NatToString(d.day), IntToString(d.year);
    var h, mm := NatToString(d.hours), TwoDigits(d.minutes);
    var ss := if res >= ResolutionSecond then ":" + TwoDigits(d.seconds) else "";
    if res < ResolutionDay {
      JoinMonthYear(name, year);
    } else if res < ResolutionMinute {
      JoinMonthDayYear(name, dd, year);
    } else {
      JoinFullDisplay(name, dd, year, h, mm, ss);
    }
  }

  /** Without a resolution the display is the month resolution's: the
      month name and the year, and no day or clock. */
  lemma DefaultResolutionIsMonth(d: DateParts, months: seq<string>)
    requires d.month < |months|
    ensures FormatDate(d, None, months) == Join([months[d.month], IntToString(d.year)], " ")
    ensures FormatDate(d, None, months) == FormatDate(d, Some(ResolutionMonth), months)
  {
    DisplayTokens(d, None, months);
    DisplayTokens(d, Some(ResolutionMonth), months);
  }

  lemma JoinMonthYear(name: string, year: string)
    ensures name + "" + " " + year == Join([name, year], " ")
  {
    JoinSnoc([name], year, " ");
    assert [name] + [year] == [name, year];
  }

  lemma JoinMonthDayYear(name: string, dd: string, year: string)
    ensures name + (" " + dd + ",") + " " + year == Join([name, dd + ",", year], " ")
  {
    JoinSnoc([name], dd + ",", " ");
    JoinSnoc([name, dd + ","], year, " ");
    assert [name] + [dd + ","] == [name, dd + ","];
    assert [name, dd + ","] + [year] == [name, dd + ",", year];
  }

  lemma JoinFullDisplay(name: string, dd: string, year: string, h: string, mm: string, ss: string)
    ensures name + (" " + dd + ",") + " " + year + (" at " + h + ":" + mm) + ss
            == Join([name, dd + ",", year, "at", h + ":" + mm + ss], " ")
  {
    var withYear := name + (" " + dd + ",") + " " + year;
    JoinMonthDayYear(name, dd, year);
    JoinSnoc([name, dd + ",", year], "at", " ");
    JoinSnoc([name, dd + ",", year, "at"], h + ":" + mm + ss, " ");
    assert [name, dd + ",", year] + ["at"] == [name, dd + ",", year, "at"];
    assert [name, dd + ",", year, "at"] + [h + ":" + mm + ss] == [name, dd + ",", year, "at", h + ":" + mm + ss];
    AtClock(withYear, h, mm, ss);
  }

  lemma AtClock(prefix: string, h: string, mm: string, ss: string)
    ensures prefix + (" at " + h + ":" + mm) + ss == prefix + " " + "at" + " " + (h + ":" + mm + ss)
  {
  }

  /** Round trip: a display of a valid date reads back as exactly the part of
      the date its resolution shows. Every field is therefore present in the
      display when, and only when, the resolution reaches it, minutes and
      seconds take exactly two digits, and the hours take no padding. */
  lemma ParseFormatRoundTrip(d: DateParts, resolution: Option<int>, months: seq<string>)
    requires ValidParts(d)
    requires ReadableMonths(months)
    ensures ParseDisplay(FormatDate(d, resolution, months), months)
            == Some(Visible(d, EffectiveResolution(resolution)))
  {
    var res := EffectiveResolution(resolution);
    var year := IntToString(d.year);
    DisplayTokens(d, resolution, months);
    MonthIndexOfDistinct(months, d.month);
    YearHasNoSpace(d.year);
    ParseIntToString(d.year);
    if res < ResolutionDay {
      ReadMonthYear(months, months[d.month], d.month, year, d.year);
    } else {
      var day := NatToString(d.day) + ",";
      DigitsHaveNoSpaceOrColon(NatToString(d.day));
      ParseDayInverts(d.day);
      if res < ResolutionMinute {
        ReadMonthDayYear(months, months[d.month], d.month, day, d.day, year, d.year);
      } else {
        var seconds := if res >= ResolutionSecond then Some(d.seconds) else None;
        var clock := NatToString(d.hours) + ":" + TwoDigits(d.minutes)
                     + (if seconds.Some? then ":" + TwoDigits(seconds.value) else "");
        ClockToken(d.hours, d.minutes, seconds);
        ReadFullDisplay(months, months[d.month], d.month, day, d.day, year, d.year, clock, Clock(d.hours, d.minutes, seconds));
      }
    }
  }

  /** A clock written by FormatDate holds no space and reads back. */
  lemma ClockToken(hours: nat, minutes: nat, seconds: Option<nat>)
    requires minutes < 60 && (seconds.Some? ==> seconds.value < 60)
    ensures var clock := NatToString(hours) + ":" + TwoDigits(minutes)
                         + (if seconds.Some? then ":" + TwoDigits(seconds.value) else "");
      ' ' !in clock && ParseClock(clock) == Some(Clock(hours, minutes, seconds))
  {
    ParseClockInverts(hours, minutes, seconds);
    DigitsHaveNoSpaceOrColon(NatToString(hours));
    DigitsHaveNoSpaceOrColon(TwoDigits(minutes));
    if seconds.Some? {
      DigitsHaveNoSpaceOrColon(TwoDigits(seconds.value));
    }
  }

  lemma ReadMonthYear(months: seq<string>, name: string, month: nat, yearToken: string, year: int)
    requires ' ' !in name && MonthIndex(months, name) == Some(month)
    requires ' ' !in yearToken && ParseInt(yearToken) == Some(year)
    ensures ParseDisplay(Join([name, yearToken], " "), months) == Some(DateView(month, None, year, None))
  {
    SplitJoin([name, yearToken], ' ');
    assert Split(Join([name, yearToken], " "), ' ') == [name, yearToken];
  }

  lemma ReadMonthDayYear(months: seq<string>, name: string, month: nat, dayToken: string, day: nat,
                         yearToken: string, year: int)
    requires ' ' !in name && MonthIndex(months, name) == Some(month)
    requires ' ' !in dayToken && ParseDay(dayToken) == Some(day)
    requires ' ' !in yearToken && ParseInt(yearToken) == Some(year)
    ensures ParseDisplay(Join([name, dayToken, yearToken], " "), months)
            == Some(DateView(month, Some(day), year, None))
  {
    SplitJoin([name, dayToken, yearToken], ' ');
    assert Split(Join([name, dayToken, yearToken], " "), ' ') == [name, dayToken, yearToken];
  }

  lemma ReadFullDisplay(months: seq<string>, name: string, month: nat, dayToken: string, day: nat,
                        yearToken: string, year: int, clockToken: string, clock: Clock)
    requires ' ' !in name && MonthIndex(months, name) == Some(month)
    requires ' ' !in dayToken && ParseDay(dayToken) == Some(day)
    requires ' ' !in yearToken && ParseInt(yearToken) == Some(year)
    requires ' ' !in clockToken && ParseClock(clockToken) == Some(clock)
    ensures ParseDisplay(Join([name, dayToken, yearToken, "at", clockToken], " "), months)
            == Some(DateView(month, Some(day), year, Some(clock)))
  {
    SplitJoin([name, dayToken, yearToken, "at", clockToken], ' ');
    assert Split(Join([name, dayToken, yearToken, "at", clockToken], " "), ' ')
           == [name, dayToken, yearToken, "at", clockToken];
  }

  /** Two valid dates with the same display agree on everything the
      resolution shows. */
  lemma SameDisplaySameView(d1: DateParts, d2: DateParts, resolution: Option<int>, months: seq<string>)
    requires ValidParts(d1) && ValidParts(d2)
    requires ReadableMonths(months)
    requires FormatDate(d1, resolution, months) == FormatDate(d2, resolution, months)
    ensures Visible(d1, EffectiveResolution(resolution)) == Visible(d2, EffectiveResolution(resolution))
  {
    ParseFormatRoundTrip(d1, resolution, months);
    ParseFormatRoundTrip(d2, resolution, months);
  }
}

=== FILE: decimal.dfy ===
/** How JavaScript renders integers when they are concatenated to a string,
    the `('0' + n).slice(-2)` two-digit idiom, and strict parsers that invert
    both renderings. */
module Decimal {
  import opened Options

  predicate IsDigit(c: char)
  {
    '0' <= c <= '9'
  }

  predicate AllDigits(s: string)
  {
    forall i :: 0 <= i < |s| ==> IsDigit(s[i])
  }

  function DigitChar(d: nat): (c: char)
    requires d < 10
    ensures IsDigit(c)
  {
    ('0' as int + d) as char
  }

  function DigitValue(c: char): (d: nat)
    requires IsDigit(c)
    ensures d < 10
  {
    c as int - '0' as int
  }

  /** The number a string of decimal digits denotes. */
  function Value(s: string): nat
    requires AllDigits(s)
  {
    if |s| == 0 then 0 else Value(s[..|s| - 1]) * 10 + DigitValue(s[|s| - 1])
  }

  /** `String(n)` for a non-negative integer: its decimal digits, with no
      leading zero. */
  function NatToString(n: nat): (s: string)
    ensures |s| >= 1 && AllDigits(s)
    ensures |s| == 1 <==> n < 10
    ensures |s| > 1 ==> s[0] != '0'
    decreases n
  {
    if n < 10 then [DigitChar(n)] else NatToString(n / 10) + [DigitChar(n % 10)]
  }

  /** `String(y)` for any integer: a minus sign before the digits of a
      negative one. */
  function IntToString(y: int): string
  {
    if y < 0 then "-" + NatToString(-y) else NatToString(y)
  }

  /** The digit strings `String(n)` can produce: non-empty, and no leading
      zero unless the string is "0". */
  predicate Canonical(s: string)
  {
    |s| >= 1 && AllDigits(s) && (|s| == 1 || s[0] != '0')
  }

  /** Reads a canonical decimal numeral; anything else is rejected. */
  function ParseNat(s: string): (r: Option<nat>)
    ensures r.Some? <==> Canonical(s)
  {
    if Canonical(s) then Some(Value(s)) else None
  }

  /** Reads what IntToString writes; "-0" is rejected because it is never
      written. */
  function ParseInt(s: string): Option<int>
  {
    if |s| >= 2 && s[0] == '-' then
      match ParseNat(s[1..])
      case Some(n) => if n > 0 then Some(0 - n as int) else None
      case None => None
    else
      match ParseNat(s)
      case Some(n) => Some(n)
      case None => None
  }

  /** `t.slice(-2)`: the last two characters, or all of `t` when it is
      shorter. */
  function SliceLast2(t: string): string
  {
    if |t| >= 2 then t[|t| - 2..] else t
  }

  /** `('0' + n).slice(-2)`: below one hundred, exactly two digits denoting
      `n`. */
  function TwoDigits(n: nat): (r: string)
    ensures n < 100 ==> |r| == 2 && AllDigits(r) && Value(r) == n
  {
    var r := SliceLast2("0" + NatToString(n));
    if n < 100 then PadBelowHundred(n); r else r
  }

  lemma PadBelowHundred(n: nat)
    requires n < 100
    ensures var r := SliceLast2("0" + NatToString(n));
      |r| == 2 && AllDigits(r) && Value(r) == n
  {
    var t := "0" + NatToString(n);
    if n < 10 {
      assert t == ['0', DigitChar(n)];
      assert SliceLast2(t) == t;
      assert t[..1] == ['0'] && t[..1][..0] == [];
      assert Value(t[..1]) == 0;
      assert DigitValue(t[1]) == n;
    } else {
      var s := NatToString(n);
      assert |s| == 2 by {
        assert n / 10 < 10;
        assert s == NatToString(n / 10) + [DigitChar(n % 10)];
      }
      NatToStringValue(n);
      assert SliceLast2(t) == s;
    }
  }

  /** Reads exactly two digits. */
  function ParseTwoDigits(s: string): Option<nat>
  {
    if |s| == 2 && AllDigits(s) then Some(Value(s)) else None
  }

  lemma {:induction false} NatToStringValue(n: nat)
    ensures Value(NatToString(n)) == n
    decreases n
  {
    if n >= 10 {
      var p := NatToString(n / 10);
      var s := p + [DigitChar(n % 10)];
      assert s[..|s| - 1] == p;
      NatToStringValue(n / 10);
    }
  }

  /** A digit string with a non-zero first digit denotes a positive number. */
  lemma {:induction false} LeadingNonZeroPositive(s: string)
    requires |s| >= 1 && AllDigits(s) && s[0] != '0'
    ensures Value(s) >= 1
    decreases |s|
  {
    if |s| > 1 {
      LeadingNonZeroPositive(s[..|s| - 1]);
    }
  }

  /** ParseNat inverts NatToString. */
  lemma ParseNatToString(n: nat)
    ensures ParseNat(NatToString(n)) == Some(n)
  {
    NatToStringValue(n);
  }

  /** NatToString inverts ParseNat: a canonical numeral is the one and only
      rendering of its value. */
  lemma {:induction false} NatToStringOfParse(s: string)
    requires Canonical(s)
    ensures NatToString(Value(s)) == s
    decreases |s|
  {
    if |s| == 1 {
      assert DigitChar(DigitValue(s[0])) == s[0];
    } else {
      var p := s[..|s| - 1];
      var d := DigitValue(s[|s| - 1]);
      LeadingNonZeroPositive(p);
      NatToStringOfParse(p);
      var n := Value(s);
      assert n == Value(p) * 10 + d;
      assert n / 10 == Value(p) && n % 10 == d;
      assert DigitChar(d) == s[|s| - 1];
      assert p + [s[|s| - 1]] == s;
    }
  }

  /** ParseInt inverts IntToString. */
  lemma ParseIntToString(y: int)
    ensures ParseInt(IntToString(y)) == Some(y)
  {
    var s := IntToString(y);
    if y < 0 {
      assert s[1..] == NatToString(-y);
      ParseNatToString(-y);
      assert ParseNat(s[1..]) == Some(-y);
    } else {
      ParseNatToString(y);
      assert IsDigit(s[0]);
    }
  }

  /** ParseTwoDigits inverts TwoDigits below one hundred. */
  lemma ParseTwoDigitsInverts(n: nat)
    requires n < 100
    ensures ParseTwoDigits(TwoDigits(n)) == Some(n)
  {
  }
}

=== FILE: model_names.dfy ===
/** `girder.getModelClassByName`: the name of the model class that belongs
    to a collection name, such as `UserModel` for `user`. */
module ModelNames {
  import opened Options

  const Suffix: string := "Model"

  predicate IsAsciiLower(c: char)
  {
    'a' <= c <= 'z'
  }

  predicate IsAsciiUpper(c: char)
  {
    'A' <= c <= 'Z'
  }

  /** `toUpperCase` on one character, for the ASCII letters. */
  function UpperAscii(c: char): (u: char)
    ensures IsAsciiLower(c) ==> IsAsciiUpper(u)
    ensures !IsAsciiLower(c) ==> u == c
  {
    if IsAsciiLower(c) then (c as int - 'a' as int + 'A' as int) as char else c
  }

  /** `toLowerCase` on one character, for the ASCII letters. */
  function LowerAscii(c: char): (l: char)
    ensures IsAsciiUpper(c) ==> IsAsciiLower(l)
    ensures !IsAsciiUpper(c) ==> l == c
  {
    if IsAsciiUpper(c) then (c as int - 'A' as int + 'a' as int) as char else c
  }

  /** `name.charAt(0).toUpperCase() + name.substr(1) + 'Model'`: the name
      with its first character upper-cased, followed by "Model". The empty
      name gives just "Model", because `charAt(0)` and `substr(1)` of the
      empty string are empty. */
  function ModelClassName(name: string): (className: string)
    ensures |className| == |name| + |Suffix|
    ensures className[|name|..] == Suffix
    ensures name != [] ==> className[0] == UpperAscii(name[0]) && className[1..|name|] == name[1..]
    ensures name == [] ==> className == Suffix
  {
    var first := if |name| > 0 then [UpperAscii(name[0])] else "";
    var rest := if |name| > 1 then name[1..] else "";
    first + rest + Suffix
  }

  /** The collection name a model class name was made from, when the class
      name ends in "Model": the suffix removed and the first character
      lower-cased. */
  function CollectionName(className: string): (name: Option<string>)
    ensures name.Some? <==> |className| >= |Suffix| && className[|className| - |Suffix|..] == Suffix
  {
    if |className| >= |Suffix| && className[|className| - |Suffix|..] == Suffix then
      var stem := className[..|className| - |Suffix|];
      Some(if |stem| > 0 then [LowerAscii(stem[0])] + stem[1..] else stem)
    else None
  }

  /** A collection name that does not start with an upper-case letter is
      recovered from its model class name. */
  lemma CollectionNameInverts(name: string)
    requires name != [] ==> !IsAsciiUpper(name[0])
    ensures CollectionName(ModelClassName(name)) == Some(name)
  {
    var className := ModelClassName(name);
    var stem := className[..|className| - |Suffix|];
    assert |stem| == |name|;
    if |name| > 0 {
      assert stem[0] == UpperAscii(name[0]);
      assert LowerAscii(UpperAscii(name[0])) == name[0];
      assert stem[1..] == name[1..];
      assert [name[0]] + name[1..] == name;
    }
  }

  /** Two collection names that start with lower-case letters or
      non-letters never share a model class name. */
  lemma ModelClassNameInjective(a: string, b: string)
    requires a != [] ==> !IsAsciiUpper(a[0])
    requires b != [] ==> !IsAsciiUpper(b[0])
    requires ModelClassName(a) == ModelClassName(b)
    ensures a == b
  {
    CollectionNameInverts(a);
    CollectionNameInverts(b);
  }
}

=== FILE: options.dfy ===
/** Optional values. Where JavaScript answers `undefined` or `null`, the model
    answers None; each use says which of the two it stands for. */
module Options {

  datatype Option<+T> = None | Some(value: T) {

    /** The carried value, or `default` when there is none. */
    function GetOr(default: T): T {
      match this
      case Some(v) => v
      case None => default
    }
  }
}

=== FILE: plugin_config.dfy ===
/** The plugin configuration registry: `girder.exposePluginConfig` records
    the route that renders a plugin's configuration page, and
    `girder.getPluginConfigRoute` looks it up. The registry is a value here;
    the web client keeps one such value in a closure for the life of the
    page. */
module PluginConfig {
  import opened Options

  datatype Registry = Registry(routes: map<string, string>)

  /** The registry before any plugin exposed its configuration. */
  function Empty(): (r: Registry)
    ensures forall pluginName :: GetRoute(r, pluginName) == None
  {
    Registry(map[])
  }

  /** `getPluginConfigRoute(pluginName)`: the exposed route, or `undefined`
      for a plugin that never exposed one. */
  function GetRoute(reg: Registry, pluginName: string): (route: Option<string>)
    ensures route.Some? <==> pluginName in reg.routes
  {
    if pluginName in reg.routes then Some(reg.routes[pluginName]) else None
  }

  /** `exposePluginConfig(pluginName, route)`: afterwards the plugin's route
      is `route`, and every other plugin's route is what it was. */
  function Expose(reg: Registry, pluginName: string, route: string): (r: Registry)
    ensures GetRoute(r, pluginName) == Some(route)
    ensures forall other :: other != pluginName ==> GetRoute(r, other) == GetRoute(reg, other)
  {
    Registry(reg.routes[pluginName := route])
  }

  /** The registry after a sequence of `exposePluginConfig` calls. */
  function ExposeAll(reg: Registry, calls: seq<(string, string)>): Registry
    decreases |calls|
  {
    if |calls| == 0 then reg
    else Expose(ExposeAll(reg, calls[..|calls| - 1]), calls[|calls| - 1].0, calls[|calls| - 1].1)
  }

  /** The route of the last call that named `pluginName`, if any did. */
  function LastExposed(calls: seq<(string, string)>, pluginName: string): Option<string>
    decreases |calls|
  {
    if |calls| == 0 then None
    else if calls[|calls| - 1].0 == pluginName then Some(calls[|calls| - 1].1)
    else LastExposed(calls[..|calls| - 1], pluginName)
  }

  /** Starting from the empty registry, a plugin's route is the one its most
      recent `exposePluginConfig` call gave, and absent when no call named
      it. */
  lemma {:induction false} LastExposeWins(calls: seq<(string, string)>, pluginName: string)
    ensures GetRoute(ExposeAll(Empty(), calls), pluginName) == LastExposed(calls, pluginName)
    decreases |calls|
  {
    if |calls| > 0 {
      LastExposeWins(calls[..|calls| - 1], pluginName);
    }
  }
}

=== FILE: query_string.dfy ===
/** `girder.parseQueryString`: turns an (already URI-decoded) query string
    into an object of parameters. */
module QueryString {
  import opened Options
  import opened Text
  import Assoc

  /** Parameters by name. None is a parameter that is present with the value
      `undefined`. */
  type Params = map<string, Option<string>>

  /** What one `&`-separated segment assigns: the text before its first `=`
      as the key, and a value only when the segment holds exactly one `=`,
      in which case the segment is `key=value`. */
  function SegmentEntry(segment: string): (e: (string, Option<string>))
    ensures e.0 == BeforeFirst(segment, '=')
    ensures e.1.Some? <==> Count(segment, '=') == 1
    ensures e.1.Some? ==> segment == e.0 + "=" + e.1.value
  {
    var aux := Split(segment, '=');
    SplitHead(segment, '=');
    if |aux| == 2 then
      JoinSplit(segment, '=');
      assert aux[1..] == [aux[1]];
      (aux[0], Some(aux[1]))
    else
      (aux[0], None)
  }

  function Entries(segments: seq<string>): (es: seq<(string, Option<string>)>)
    ensures |es| == |segments|
    ensures forall i :: 0 <= i < |segments| ==> es[i] == SegmentEntry(segments[i])
  {
    seq(|segments|, i requires 0 <= i < |segments| => SegmentEntry(segments[i]))
  }

  /** An empty query string gives no parameters; otherwise every segment
      names a parameter, the last segment for a name decides its value. */
  function ParseQueryString(queryString: string): (params: Params)
    ensures queryString == "" ==> params == map[]
    ensures queryString != "" ==>
              params.Keys == set segment | segment in Split(queryString, '&') :: BeforeFirst(segment, '=')
  {
    if queryString == "" then map[]
    else
      var segments := Split(queryString, '&');
      EntryKeys(segments);
      Assoc.AssignKeys(Entries(segments));
      Assoc.Assign(Entries(segments))
  }

  /** The names the entries assign are the segments' names. */
  lemma EntryKeys(segments: seq<string>)
    ensures Assoc.KeysOf(Entries(segments)) == set segment | segment in segments :: BeforeFirst(segment, '=')
  {
    var es := Entries(segments);
    forall k | k in Assoc.KeysOf(es)
      ensures k in set segment | segment in segments :: BeforeFirst(segment, '=')
    {
      var i :| 0 <= i < |es| && es[i].0 == k;
      assert segments[i] in segments;
    }
    forall k | k in set segment | segment in segments :: BeforeFirst(segment, '=')
      ensures k in Assoc.KeysOf(es)
    {
      var segment :| segment in segments && BeforeFirst(segment, '=') == k;
      var i :| 0 <= i < |segments| && segments[i] == segment;
      assert es[i].0 == k;
    }
  }


  /** The value of a parameter is the one its last segment gives. */
  lemma ParseLastSegmentDecides(queryString: string, i: nat)
    requires queryString != ""
    requires i < |Split(queryString, '&')|
    requires forall j :: i < j < |Split(queryString, '&')| ==>
               BeforeFirst(Split(queryString, '&')[j], '=') != BeforeFirst(Split(queryString, '&')[i], '=')
    ensures ParseQueryString(queryString)[BeforeFirst(Split(queryString, '&')[i], '=')]
            == SegmentEntry(Split(queryString, '&')[i]).1
  {
    var es := Entries(Split(queryString, '&'));
    assert Assoc.LastFor(es, i);
    Assoc.AssignLastFor(es, i);
  }

  /** A non-empty query string without `&` is a single parameter. */
  lemma ParseSingle(segment: string)
    requires segment != "" && '&' !in segment
    ensures ParseQueryString(segment) == map[SegmentEntry(segment).0 := SegmentEntry(segment).1]
  {
    SplitNoSeparator(segment, '&');
    var es := Entries([segment]);
    assert es == [SegmentEntry(segment)];
    assert es[..0] == [];
  }

  /** Later segments overwrite earlier ones: the parameters of two non-empty
      query strings joined by `&` are those of the first overridden by those
      of the second. */
  lemma ParseLastWins(first: string, second: string)
    requires first != "" && second != ""
    ensures ParseQueryString(first + "&" + second) == ParseQueryString(first) + ParseQueryString(second)
  {
    var a := Split(first, '&');
    var b := Split(second, '&');
    SplitAppend(first, second, '&');
    assert Entries(a + b) == Entries(a) + Entries(b);
    Assoc.AssignAppend(Entries(a), Entries(b));
  }

  /** `name=value` with neither part holding a delimiter is one parameter
      with that value. */
  lemma SingleParam(name: string, value: string)
    requires '=' !in name && '&' !in name && '=' !in value && '&' !in value
    ensures ParseQueryString(name + "=" + value) == map[name := Some(value)]
  {
    var segment := name + "=" + value;
    assert '&' !in segment;
    SplitAppend(name, value, '=');
    SplitNoSeparator(name, '=');
    SplitNoSeparator(value, '=');
    ParseSingle(segment);
  }

  /** A repeated name keeps the value of its last segment. */
  lemma RepeatedName(a: string, b: string, first: string, second: string, third: string)
    requires a != b
    requires '=' !in a && '&' !in a && '=' !in b && '&' !in b
    requires '=' !in first && '&' !in first && '=' !in second && '&' !in second
    requires '=' !in third && '&' !in third
    ensures ParseQueryString((a + "=" + first) + "&" + (b + "=" + second) + "&" + (a + "=" + third))
            == map[a := Some(third), b := Some(second)]
  {
    var x, y, z := a + "=" + first, b + "=" + second, a + "=" + third;
    SingleParam(a, first);
    SingleParam(b, second);
    SingleParam(a, third);
    ParseLastWins(x, y);
    ParseLastWins(x + "&" + y, z);
    Assoc.OverwriteKeepsOthers(a, b, Some(first), Some(second), Some(third));
  }

  /** A segment with two `=` names its parameter but leaves it `undefined`. */
  lemma TwoEquals(a: string, b: string, c: string)
    requires '=' !in a && '&' !in a && '=' !in b && '&' !in b && '=' !in c && '&' !in c
    ensures ParseQueryString(a + "=" + b + "=" + c) == map[a := None]
  {
    var segment := a + "=" + b + "=" + c;
    assert '&' !in segment;
    SplitAppend(a + "=" + b, c, '=');
    SplitAppend(a, b, '=');
    SplitNoSeparator(a, '=');
    SplitNoSeparator(b, '=');
    SplitNoSeparator(c, '=');
    assert Split(segment, '=') == [a, b, c];
    ParseSingle(segment);
  }
}

=== FILE: size_format.dfy ===
/** `girder.formatSize`: chooses the unit and the number of decimal places in
    which a byte count is shown. The count is divided by 1024 until it drops
    below 1024; the number of divisions picks the unit. Division by 1024 is
    exact in binary floating point, so it is modelled with `real`. The
    rendering of the scaled value with `toFixed` is not part of the model. */
module SizeFormat {
  import opened Options

  const Kibi: nat := 1024
  const Gibi: nat := 1073741824

  /** The unit table, indexed by the number of divisions. */
  const Units: seq<string> := ["B", "KB", "MB", "GB", "TB"]

  function Pow1024(n: nat): (p: nat)
    ensures p >= 1
  {
    if n == 0 then 1 else Kibi * Pow1024(n - 1)
  }

  /** What `formatSize` decides: the scaled value, the number of decimal
      places, the number of divisions, and the unit; `unit` is None where the
      table lookup runs off the end and the string shows "undefined". */
  datatype SizeDisplay = SizeDisplay(scaled: real, precision: nat, unitIndex: nat, unit: Option<string>)

  /** `sizeBytes > 1073741824 ? 2 : 1`, then 0 below 1024. */
  function Precision(sizeBytes: nat): (p: nat)
    ensures p <= 2
    ensures p == 0 <==> sizeBytes < Kibi
    ensures p == 2 <==> sizeBytes > Gibi
  {
    if sizeBytes < Kibi then 0 else if sizeBytes > Gibi then 2 else 1
  }

  /** The division loop: divides by 1024 while the value is at least 1024,
      counting the divisions. */
  method ScaleDown(sizeBytes: nat) returns (scaled: real, i: nat)
    ensures scaled * (Pow1024(i) as real) == sizeBytes as real
    ensures scaled < Kibi as real
    ensures sizeBytes < Kibi ==> i == 0
    ensures i > 0 ==> Pow1024(i) <= sizeBytes
    ensures sizeBytes < Pow1024(i + 1)
  {
    scaled := sizeBytes as real;
    i := 0;
    while scaled >= Kibi as real
      invariant scaled * (Pow1024(i) as real) == sizeBytes as real
      invariant i > 0 ==> Pow1024(i) <= sizeBytes
      decreases sizeBytes + 1 - Pow1024(i)
    {
      DivideOnce(scaled, i, sizeBytes);
      scaled := scaled / Kibi as real;
      i := i + 1;
    }
    ScaledBelow(scaled, Pow1024(i), sizeBytes);
  }

  /** `formatSize(sizeBytes)` without the final rendering: no decimals below
      1 KiB, two above 1 GiB (exactly 1 GiB still gets one), and the unit
      whose power of 1024 brackets the count, absent from 1024 TB on. */
  method FormatSize(sizeBytes: nat) returns (d: SizeDisplay)
    ensures d.precision == 0 <==> sizeBytes < Kibi
    ensures d.precision == 2 <==> sizeBytes > Gibi
    ensures d.precision <= 2
    ensures sizeBytes < Kibi ==> d.unitIndex == 0
    ensures sizeBytes >= Kibi ==> Pow1024(d.unitIndex) <= sizeBytes
    ensures sizeBytes < Pow1024(d.unitIndex + 1)
    ensures d.scaled * (Pow1024(d.unitIndex) as real) == sizeBytes as real
    ensures sizeBytes >= Kibi ==> 1.0 <= d.scaled
    ensures d.scaled < Kibi as real
    ensures d.unit.Some? <==> sizeBytes < Pow1024(|Units|)
    ensures d.unit.Some? ==> d.unitIndex < |Units| && d.unit.value == Units[d.unitIndex]
    ensures d.precision == 2 <==> d.unitIndex >= 3 && !(d.unitIndex == 3 && d.scaled == 1.0)
  {
    var precision := Precision(sizeBytes);
    var scaled, i := ScaleDown(sizeBytes);
    if sizeBytes >= Kibi {
      ScaledAtLeastOne(scaled, Pow1024(i), sizeBytes);
    }
    UnitIndexBelowTableLength(sizeBytes, i);
    TwoDecimalsByUnit(sizeBytes, scaled, i);
    var unit := if i < |Units| then Some(Units[i]) else None;
    d := SizeDisplay(scaled, precision, i, unit);
  }

  /** One turn of the division loop keeps its invariant and makes progress. */
  lemma DivideOnce(scaled: real, i: nat, sizeBytes: nat)
    requires scaled * (Pow1024(i) as real) == sizeBytes as real
    requires scaled >= Kibi as real
    ensures (scaled / Kibi as real) * (Pow1024(i + 1) as real) == sizeBytes as real
    ensures Pow1024(i) < Pow1024(i + 1) <= sizeBytes
  {
    var p := Pow1024(i);
    assert Pow1024(i + 1) == Kibi * p;
    ScaledBound(scaled, p, sizeBytes);
    DivisionStep(scaled, p);
  }

  /** While the scaled value is at least 1024, one more division stays within
      the byte count. */
  lemma ScaledBound(scaled: real, p: nat, sizeBytes: nat)
    requires p >= 1
    requires scaled * (p as real) == sizeBytes as real
    requires scaled >= Kibi as real
    ensures Kibi * p <= sizeBytes
  {
    assert scaled * (p as real) >= (Kibi as real) * (p as real);
  }

  /** Dividing the scaled value by 1024 and multiplying the divisor by 1024
      keeps their product. */
  lemma DivisionStep(scaled: real, p: nat)
    ensures (scaled / Kibi as real) * ((Kibi * p) as real) == scaled * (p as real)
  {
  }

  lemma ScaledBelow(scaled: real, p: nat, sizeBytes: nat)
    requires p >= 1
    requires scaled * (p as real) == sizeBytes as real
    requires scaled < Kibi as real
    ensures sizeBytes < Kibi * p
  {
    assert scaled * (p as real) < (Kibi as real) * (p as real);
  }

  lemma ScaledAtLeastOne(scaled: real, p: nat, sizeBytes: nat)
    requires p >= 1
    requires scaled * (p as real) == sizeBytes as real
    requires p <= sizeBytes
    ensures 1.0 <= scaled
  {
    assert (scaled - 1.0) * (p as real) >= 0.0;
  }

  lemma {:induction false} Pow1024Monotone(m: nat, n: nat)
    requires m <= n
    ensures Pow1024(m) <= Pow1024(n)
    decreases n - m
  {
    if m < n {
      Pow1024Monotone(m, n - 1);
    }
  }

  /** The unit index is below the table length exactly when the byte count is
      below 1024 to the power of the table length. */
  lemma UnitIndexBelowTableLength(sizeBytes: nat, i: nat)
    requires sizeBytes < Pow1024(i + 1)
    requires i > 0 ==> Pow1024(i) <= sizeBytes
    ensures i < |Units| <==> sizeBytes < Pow1024(|Units|)
  {
    if i < |Units| {
      Pow1024Monotone(i + 1, |Units|);
    } else {
      Pow1024Monotone(|Units|, i);
    }
  }

  /** At most one number of divisions brackets a byte count, so the
      postcondition of FormatSize fixes the unit. */
  lemma UnitIndexUnique(sizeBytes: nat, i: nat, j: nat)
    requires Pow1024(i) <= sizeBytes < Pow1024(i + 1)
    requires Pow1024(j) <= sizeBytes < Pow1024(j + 1)
    ensures i == j
  {
    if i < j {
      Pow1024Monotone(i + 1, j);
    } else if j < i {
      Pow1024Monotone(j + 1, i);
    }
  }

  /** In terms of the unit: because the comparison with 1073741824 is
      strict, two decimals go to every count shown in GB or TB except
      exactly 1 GiB, which is shown as 1 GB with one decimal. */
  lemma TwoDecimalsByUnit(sizeBytes: nat, scaled: real, i: nat)
    requires scaled * (Pow1024(i) as real) == sizeBytes as real
    requires i > 0 ==> Pow1024(i) <= sizeBytes
    requires sizeBytes < Pow1024(i + 1)
    ensures sizeBytes > Gibi <==> i >= 3 && !(i == 3 && scaled == 1.0)
  {
    assert Pow1024(3) == Gibi;
    if i < 3 {
      Pow1024Monotone(i + 1, 3);
    } else if i == 3 {
      assert scaled * (Gibi as real) == sizeBytes as real;
    } else {
      Pow1024Monotone(4, i);
      assert Pow1024(4) > Gibi;
    }
  }
}

=== FILE: text.dfy ===
/** Character-sequence helpers with the behaviour of the JavaScript string
    primitives the web client relies on: `split` on a single character,
    `join`, and trimming with the regular-expression class `\s`. */
module Text {

  /** Number of occurrences of `c` in `s`. */
  function Count(s: string, c: char): (n: nat)
    ensures n <= |s|
    ensures n == 0 <==> c !in s
  {
    if |s| == 0 then 0
    else
      assert s == [s[0]] + s[1..];
      (if s[0] == c then 1 else 0) + Count(s[1..], c)
  }

  /** `s.split(sep)` for a one-character separator: the pieces between
      consecutive separators, so there is always one piece more than there are
      separators, and the empty string splits into one empty piece. */
  function Split(s: string, sep: char): (parts: seq<string>)
    ensures |parts| == Count(s, sep) + 1
    ensures forall i :: 0 <= i < |parts| ==> sep !in parts[i]
    decreases |s|
  {
    if |s| == 0 then [""]
    else
      var rest := Split(s[1..], sep);
      if s[0] == sep then [""] + rest
      else [[s[0]] + rest[0]] + rest[1..]
  }

  /** `parts.join(sep)`. */
  function Join(parts: seq<string>, sep: string): string
  {
    if |parts| == 0 then ""
    else if |parts| == 1 then parts[0]
    else parts[0] + sep + Join(parts[1..], sep)
  }

  /** Position of the first occurrence of `c` in `s`. */
  function IndexOf(s: string, c: char): (i: nat)
    requires c in s
    ensures i < |s| && s[i] == c
    ensures c !in s[..i]
  {
    if s[0] == c then 0
    else
      assert c in s[1..] by { assert s == [s[0]] + s[1..]; }
      var j := IndexOf(s[1..], c);
      assert s[..j + 1] == [s[0]] + s[1..][..j];
      j + 1
  }

  /** The text before the first `c`, or all of `s` when it holds no `c`. */
  function BeforeFirst(s: string, c: char): (r: string)
    ensures c !in r
  {
    if c in s then s[..IndexOf(s, c)] else s
  }

  /** The text after the first `c`. */
  function AfterFirst(s: string, c: char): string
    requires c in s
  {
    s[IndexOf(s, c) + 1..]
  }

  /** `s` with every `c` deleted. */
  function RemoveAll(s: string, c: char): (r: string)
    ensures c !in r
    ensures |r| == |s| - Count(s, c)
  {
    if |s| == 0 then ""
    else (if s[0] == c then "" else [s[0]]) + RemoveAll(s[1..], c)
  }

  lemma {:induction false} SplitNoSeparator(s: string, sep: char)
    requires sep !in s
    ensures Split(s, sep) == [s]
    decreases |s|
  {
    if |s| > 0 {
      assert sep !in s[1..] by { assert s == [s[0]] + s[1..]; }
      SplitNoSeparator(s[1..], sep);
      assert [s[0]] + s[1..] == s;
    }
  }

  /** Splitting distributes over a separator placed between two strings. */
  lemma {:induction false} SplitAppend(a: string, b: string, sep: char)
    ensures Split(a + [sep] + b, sep) == Split(a, sep) + Split(b, sep)
    decreases |a|
  {
    var s := a + [sep] + b;
    if |a| == 0 {
      assert s[1..] == b;
    } else {
      assert s[1..] == a[1..] + [sep] + b;
      SplitAppend(a[1..], b, sep);
    }
  }

  /** Joining the pieces with the separator gives back the original string. */
  lemma {:induction false} JoinSplit(s: string, sep: char)
    ensures Join(Split(s, sep), [sep]) == s
    decreases |s|
  {
    if |s| > 0 {
      var rest := Split(s[1..], sep);
      JoinSplit(s[1..], sep);
      if s[0] == sep {
        assert ([""] + rest)[1..] == rest;
      } else {
        JoinOntoHead([s[0]], rest, [sep]);
      }
    }
  }

  /** Joining strings that hold no separator and splitting again gives the
      same pieces. */
  lemma {:induction false} SplitJoin(parts: seq<string>, sep: char)
    requires |parts| >= 1
    requires forall i :: 0 <= i < |parts| ==> sep !in parts[i]
    ensures Split(Join(parts, [sep]), sep) == parts
    decreases |parts|
  {
    if |parts| == 1 {
      SplitNoSeparator(parts[0], sep);
    } else {
      SplitJoin(parts[1..], sep);
      SplitAppend(parts[0], Join(parts[1..], [sep]), sep);
      SplitNoSeparator(parts[0], sep);
      assert [parts[0]] + parts[1..] == parts;
    }
  }

  /** Joining one more piece appends the separator and the piece. */
  lemma {:induction false} JoinSnoc(parts: seq<string>, last: string, sep: string)
    requires |parts| >= 1
    ensures Join(parts + [last], sep) == Join(parts, sep) + sep + last
    decreases |parts|
  {
    var ps := parts + [last];
    if |parts| == 1 {
      assert ps[1..] == [last];
    } else {
      assert ps[1..] == parts[1..] + [last];
      JoinSnoc(parts[1..], last, sep);
    }
  }

  /** Prepending to the first piece prepends to the joined string. */
  lemma JoinOntoHead(x: string, parts: seq<string>, sep: string)
    requires |parts| >= 1
    ensures Join([x + parts[0]] + parts[1..], sep) == x + Join(parts, sep)
  {
    var ps := [x + parts[0]] + parts[1..];
    if |parts| > 1 {
      assert ps[1..] == parts[1..];
    }
  }

  /** The first piece of a split is the text before the first separator. */
  lemma SplitHead(s: string, sep: char)
    ensures Split(s, sep)[0] == BeforeFirst(s, sep)
  {
    if sep in s {
      var i := IndexOf(s, sep);
      assert s == s[..i] + [sep] + s[i + 1..];
      SplitAppend(s[..i], s[i + 1..], sep);
      SplitNoSeparator(s[..i], sep);
    } else {
      SplitNoSeparator(s, sep);
    }
  }

  /** The pieces after the first are the split of the text after the first
      separator. */
  lemma SplitTail(s: string, sep: char)
    requires sep in s
    ensures Split(s, sep)[1..] == Split(AfterFirst(s, sep), sep)
  {
    var i := IndexOf(s, sep);
    assert s == s[..i] + [sep] + s[i + 1..];
    SplitAppend(s[..i], s[i + 1..], sep);
    SplitNoSeparator(s[..i], sep);
  }

  /** The first separator after a separator-free prefix is the one that
      follows the prefix. */
  lemma FirstSeparatorAfter(a: string, b: string, sep: char)
    requires sep !in a
    ensures BeforeFirst(a + [sep] + b, sep) == a
    ensures AfterFirst(a + [sep] + b, sep) == b
  {
    var s := a + [sep] + b;
    assert s[..|a|] == a;
    assert s[|a| + 1..] == b;
  }

  /** Joining the pieces with the empty string deletes every separator. */
  lemma {:induction false} JoinEmptyRemovesSeparators(s: string, sep: char)
    ensures Join(Split(s, sep), "") == RemoveAll(s, sep)
    decreases |s|
  {
    if |s| > 0 {
      var rest := Split(s[1..], sep);
      JoinEmptyRemovesSeparators(s[1..], sep);
      if s[0] == sep {
        assert ([""] + rest)[1..] == rest;
      } else {
        JoinOntoHead([s[0]], rest, "");
      }
    }
  }

  lemma {:induction false} RemoveAllAppend(a: string, b: string, c: char)
    ensures RemoveAll(a + b, c) == RemoveAll(a, c) + RemoveAll(b, c)
    decreases |a|
  {
    if |a| > 0 {
      assert (a + b)[1..] == a[1..] + b;
      RemoveAllAppend(a[1..], b, c);
    } else {
      assert a + b == b;
    }
  }

  lemma {:induction false} RemoveAllAbsent(a: string, c: char)
    requires c !in a
    ensures RemoveAll(a, c) == a
    decreases |a|
  {
    if |a| > 0 {
      assert c !in a[1..] by { assert a == [a[0]] + a[1..]; }
      RemoveAllAbsent(a[1..], c);
      assert [a[0]] + a[1..] == a;
    }
  }

  /** Deleting the only separator between two separator-free strings
      concatenates them. */
  lemma RemoveSeparatorBetween(a: string, b: string, sep: char)
    requires sep !in a && sep !in b
    ensures RemoveAll(a + [sep] + b, sep) == a + b
  {
    RemoveAllAppend(a + [sep], b, sep);
    RemoveAllAppend(a, [sep], sep);
    RemoveAllAbsent(a, sep);
    RemoveAllAbsent(b, sep);
    assert RemoveAll([sep], sep) == [];
    assert RemoveAll(a + [sep], sep) == a;
  }

  /** The characters of the ECMAScript regular-expression class `\s`:
      WhiteSpace and LineTerminator code points. */
  predicate IsJsSpace(c: char)
  {
    || c == '\t' || c == '\n' || c == '\U{000B}' || c == '\U{000C}' || c == '\r'
    || c == ' ' || c == '\U{00A0}' || c == '\U{1680}'
    || ('\U{2000}' <= c <= '\U{200A}')
    || c == '\U{2028}' || c == '\U{2029}' || c == '\U{202F}' || c == '\U{205F}'
    || c == '\U{3000}' || c == '\U{FEFF}'
  }

  /** Length of the run of whitespace that starts `s`. */
  function LeadingSpaces(s: string): (n: nat)
    ensures n <= |s|
    ensures forall i :: 0 <= i < n ==> IsJsSpace(s[i])
    ensures n < |s| ==> !IsJsSpace(s[n])
  {
    if |s| > 0 && IsJsSpace(s[0]) then 1 + LeadingSpaces(s[1..]) else 0
  }

  /** Length of the run of whitespace that ends `s`. */
  function TrailingSpaces(s: string): (n: nat)
    ensures n <= |s|
    ensures forall i :: |s| - n <= i < |s| ==> IsJsSpace(s[i])
    ensures n < |s| ==> !IsJsSpace(s[|s| - n - 1])
  {
    if |s| > 0 && IsJsSpace(s[|s| - 1]) then 1 + TrailingSpaces(s[..|s| - 1]) else 0
  }

  /** `s.replace(/^\s+/, '')`. */
  function TrimStart(s: string): string
  {
    if |s| > 0 && IsJsSpace(s[0]) then TrimStart(s[1..]) else s
  }

  /** `s.replace(/\s+$/, '')`. */
  function TrimEnd(s: string): string
  {
    if |s| > 0 && IsJsSpace(s[|s| - 1]) then TrimEnd(s[..|s| - 1]) else s
  }

  /** `s.replace(/^\s+/, '').replace(/\s+$/, '')`. */
  function Trim(s: string): string
  {
    TrimEnd(TrimStart(s))
  }

  lemma {:induction false} TrimStartDropsLeadingSpaces(s: string)
    ensures TrimStart(s) == s[LeadingSpaces(s)..]
    decreases |s|
  {
    if |s| > 0 && IsJsSpace(s[0]) {
      TrimStartDropsLeadingSpaces(s[1..]);
    }
  }

  lemma {:induction false} TrimEndDropsTrailingSpaces(s: string)
    ensures TrimEnd(s) == s[..|s| - TrailingSpaces(s)]
    decreases |s|
  {
    if |s| > 0 && IsJsSpace(s[|s| - 1]) {
      TrimEndDropsTrailingSpaces(s[..|s| - 1]);
    }
  }

  /** Trimming keeps the infix of `s` that remains once the leading and the
      trailing whitespace are cut off, and nothing else. */
  lemma TrimCutsOnlyWhitespace(s: string)
    ensures var r := Trim(s);
      && |r| <= |s| - LeadingSpaces(s)
      && r == s[LeadingSpaces(s)..LeadingSpaces(s) + |r|]
      && (forall i :: 0 <= i < LeadingSpaces(s) ==> IsJsSpace(s[i]))
      && (forall i :: LeadingSpaces(s) + |r| <= i < |s| ==> IsJsSpace(s[i]))
      && (r != [] ==> !IsJsSpace(r[0]) && !IsJsSpace(r[|r| - 1]))
  {
    TrimStartDropsLeadingSpaces(s);
    TrimEndDropsTrailingSpaces(TrimStart(s));
  }

  /** Trimming twice trims no more than trimming once. */
  lemma TrimIdempotent(s: string)
    ensures Trim(Trim(s)) == Trim(s)
  {
    var r := Trim(s);
    TrimCutsOnlyWhitespace(s);
    TrimUnpadded(r);
  }

  /** A string that neither starts nor ends with whitespace is left as it
      is. */
  lemma TrimUnpadded(s: string)
    requires s != [] ==> !IsJsSpace(s[0]) && !IsJsSpace(s[|s| - 1])
    ensures Trim(s) == s
  {
    TrimStartDropsLeadingSpaces(s);
    TrimEndDropsTrailingSpaces(s);
  }
}
